=== FILE: README.md ===
# Menu backend: carts, orders, catalogue and sign-up, in Dafny

This project models the rule-bearing core of a Spring Boot backend for a
burger shop's menu. The backend's parts are:

- a product catalogue (`Produto`);
- one shopping cart per user (`Carrinho` with `ItemCarrinho` lines);
- checkout, which turns the cart into an order (`Pedido` with `ItemPedido` lines);
- order status management;
- user sign-up with roles `CLIENTE` and `ADMIN`;
- a filter that reads a bearer token from the `Authorization` header.

The whole database is one immutable value, `Store.Store`. It holds:

- maps from ids to users, products, carts, cart lines and orders;
- one id counter per table, since ids are generated by the database.

`Store.Valid` is the integrity every operation keeps:

- keys lie below their counters, and so do the ids of stored order lines;
- usernames and emails are unique;
- a user has at most one cart;
- rows reference existing rows;
- every cart line has a positive quantity;
- a cart has at most one line per product;
- an order's stored total is the sum of its lines.

A cart's lines are not stored in the cart. They are the cart-line rows that point at it (`Store.LinesOf`). The entity maps them as a plain list with no ordering annotation, so the database decides the order they load in. The model fixes that order as ascending id; see "## Left out".

Repository lookups are the smallest matching key (`Keys.FirstKey`). The uniqueness rules in `Valid` make that key the only match.

Every service method is one atomic step. It returns either an `Error` or the new store together with the response the method builds. An `Error` stands for the `RuntimeException` the method throws, and the transaction rolls back.

Controllers return a `Response`: 200, 201, 204, 400, 403, 404, or `Thrown(e)` for an exception that reaches Spring unhandled.

`@PreAuthorize` gates are checks on the authorities of the caller's token (`JwtFilter.Principal`). A failed gate is a 403.

Modelling conventions:

- Money (`BigDecimal`) is an integer number of cents.
- `LocalDateTime.now()` is an explicit `now` parameter.
- JSON Web Token validation and claim extraction are an opaque `TokenProvider`.
- The email-format check is an opaque `isEmail` predicate.
- The password encoder is an opaque `encode` function.

Modules follow the source: `CartService` / `CartProperties` (CarrinhoService),
`OrderService` / `OrderProperties` (PedidoService), `OrderController`
(PedidoController), `ProductService`, `ProductController`, `Registration`
(AuthController.registerUser and UserRegisterDTO), `UserService` and
`JwtFilter` (JwtAuthenticationFilter). `Keys` and `Money` hold the
generic sequence and sum facts, and `Scenarios` composes the cart and
checkout lemmas on concrete prices.

Where the code and its documentation disagree, the model follows the code:

- `GET /api/pedidos/{id}` for a missing order throws an unhandled exception; it is not a clean 404.
- An unknown status name is a 400 from the controller; the service has no invalid-status error.
- Updating or removing another user's cart line throws the "item does not belong to the cart" exception. It is not a 403.
- The order-read check uses the roles stored with the user, not the token's authorities.
- Adding a product whose availability is null throws on unboxing (`NullField`), because the check unboxes a `Boolean`.

## Model

| member | source | states |
|---|---|---|
| CartService.ViewCart | src/main/java/com/example/menubackend/service/CarrinhoService.java:168-197 | The cart response names the cart, its owner and the owner's name. It shows one line per stored line, in the model's id order, with that line's id, its product's current name and image, and the line's product, quantity, unit price and subtotal unit price × quantity. Its total is the sum of the lines' subtotals. |
| CartService.ViewLines | src/main/java/com/example/menubackend/service/CarrinhoService.java:174-193 | One response line per given cart line, in the given order, each carrying that line's id, its product's current name and image, and the line's product, quantity and unit price. The subtotals add up to the sum of the lines. |
| CartService.GetCart | src/main/java/com/example/menubackend/service/CarrinhoService.java:160-165 | Fails with cart-not-found exactly when the user owns no cart. Otherwise answers the response of the user's own cart. |
| CartService.GetOrCreateCart | src/main/java/com/example/menubackend/service/CarrinhoService.java:41-56 | Fails with user-not-found exactly when the user does not exist. Otherwise answers a cart owned by that user, as stored, and keeps the store valid (still one cart per user). |
| CartService.PutLine | src/main/java/com/example/menubackend/service/CarrinhoService.java:70-88 | The line-table part of adding keeps every integrity rule: at most one line per product in a cart, and no line with quantity ≤ 0. No cart record changes. |
| CartService.SetQuantity | src/main/java/com/example/menubackend/service/CarrinhoService.java:109-115 | Setting a line's quantity keeps the store valid: no zero or negative quantity is stored, and no cart gets two lines of one product. A q ≤ 0 deletes exactly that line. Otherwise that line gets quantity q and nothing else changes. |
| CartService.AddItem | src/main/java/com/example/menubackend/service/CarrinhoService.java:59-95 | Fails only with cart-not-found, product-not-found, null-availability or unavailable. On success it answers the caller's cart as now stored and keeps the store valid. |
| CartService.UpdateItemQuantity | src/main/java/com/example/menubackend/service/CarrinhoService.java:98-122 | Fails only with cart-not-found, item-not-found or item-not-in-cart. On success it answers the caller's cart as now stored and keeps the store valid. |
| CartService.RemoveItem | src/main/java/com/example/menubackend/service/CarrinhoService.java:125-142 | Fails only with cart-not-found, item-not-found or item-not-in-cart. On success it answers the caller's cart as now stored and keeps the store valid. |
| CartService.ClearCart | src/main/java/com/example/menubackend/service/CarrinhoService.java:145-157 | On success the store stays valid. |
| CartService.WithoutLinesOf | src/main/java/com/example/menubackend/service/CarrinhoService.java:150-153 | Removes exactly the line rows of the given cart, leaving every other row as it was. |
| CartProperties.GetOrCreateCartUnknownUser | src/main/java/com/example/menubackend/service/CarrinhoService.java:42-43 | An unknown user is an error. |
| CartProperties.GetOrCreateCartExisting | src/main/java/com/example/menubackend/service/CarrinhoService.java:45 | A user who already has a cart gets that cart back, and the store is unchanged. |
| CartProperties.GetOrCreateCartCreates | src/main/java/com/example/menubackend/service/CarrinhoService.java:45-53 | A user without a cart gets exactly one new cart under a fresh id. It is owned by them, stamped now and has no lines (total 0), and nothing else changes. |
| CartProperties.AddItemFailures | src/main/java/com/example/menubackend/service/CarrinhoService.java:60-68 | Adding fails and writes nothing when the user has no cart (none is created), the product is missing, or the product is unavailable (false or null). |
| CartProperties.AddItemUnfolds | src/main/java/com/example/menubackend/service/CarrinhoService.java:70-92 | Past the checks, adding is the line-table change followed by the cart's last-updated stamp. |
| CartProperties.PutLineMerges | src/main/java/com/example/menubackend/service/CarrinhoService.java:70-75 | When the cart has a line of the product, adding merges into that line: its quantity becomes old + delta. |
| CartProperties.SetQuantityEffect | src/main/java/com/example/menubackend/service/CarrinhoService.java:84-88 | After a quantity change only that row differs: it is gone when the quantity is ≤ 0, otherwise it carries the new quantity with the same product and price. |
| CartProperties.AddItemMerges | src/main/java/com/example/menubackend/service/CarrinhoService.java:70-92 | Adding a product that already has a line raises that line's quantity by the delta and keeps its stored unit price, deleting it if the sum is ≤ 0. No line is created and no other line or table changes except the cart's stamp. |
| CartProperties.AddItemCreatesLine | src/main/java/com/example/menubackend/service/CarrinhoService.java:76-92 | Adding a positive quantity of a product with no line yet stores exactly one new line under a fresh id. The line has that quantity and the product's current price. |
| CartProperties.AddItemNonPositiveNew | src/main/java/com/example/menubackend/service/CarrinhoService.java:76-88 | Adding a quantity ≤ 0 of a product with no line stores no line and consumes no id. |
| CartProperties.AddItemNullPrice | src/main/java/com/example/menubackend/service/CarrinhoService.java:81 | A new line for a product without a price cannot be saved, because the unit price is NOT NULL. |
| CartProperties.ItemOperationFailures | src/main/java/com/example/menubackend/service/CarrinhoService.java:99-107 | Updating and removing fail, writing nothing, when the caller has no cart, the line does not exist, or the line belongs to another cart. |
| CartProperties.UpdateItemQuantitySets | src/main/java/com/example/menubackend/service/CarrinhoService.java:98-121 | Updating sets the line's quantity to the given absolute value, keeping product and price. A value ≤ 0 deletes the line. No other line changes, and the answer is the cart as now stored. |
| CartProperties.RemoveItemDeletes | src/main/java/com/example/menubackend/service/CarrinhoService.java:136-141 | Removing deletes exactly the named line. The carts change only in the caller's stamp. |
| CartProperties.ClearCartNoCart | src/main/java/com/example/menubackend/service/CarrinhoService.java:146-147 | Clearing without a cart is an error. |
| CartProperties.ClearCartEmpties | src/main/java/com/example/menubackend/service/CarrinhoService.java:150-156 | Clearing deletes every line of the caller's cart and no other line. The cart record remains and other carts are untouched. |
| CartProperties.CartTotalIsSumOfLines | src/main/java/com/example/menubackend/service/CarrinhoService.java:184-194 | Each response line's subtotal is unit price × quantity, and the total is the sum of the subtotals: 0 for a cart without lines. |
| CartProperties.LinesOfAfterNewLine | src/main/java/com/example/menubackend/model/Carrinho.java:30-31 | In the model's id-ordered listing, a line saved under the next id comes last among its cart's lines. |
| CartProperties.LinesOfSameRows | src/main/java/com/example/menubackend/model/Carrinho.java:30-31 | In the model's id-ordered listing, a cart whose set of line rows is unchanged lists the same lines in the same order. |
| Money.SumOfShownLines | src/main/java/com/example/menubackend/service/CarrinhoService.java:191-194 | Summing the displayed subtotals gives the same as summing unit price × quantity over the lines shown. |
| OrderService.ViewOrder | src/main/java/com/example/menubackend/service/PedidoService.java:121-146 | An order's response carries its id, owner, the owner's name, date, status and stored total. It has one line per stored order line, carrying that line's id, its product's current name and image, and subtotal unit price × quantity. The subtotals add up to the total. |
| OrderService.ViewOrderItems | src/main/java/com/example/menubackend/service/PedidoService.java:130-142 | Each stored order line becomes one response line, in order, showing its id, its product's current name and image, and its product, quantity and unit price. The recomputed subtotals add up to the sum of the lines. |
| OrderService.Snapshot | src/main/java/com/example/menubackend/service/PedidoService.java:64-74 | The order lines made from a cart: one per cart line, in the cart's order, with the same product, quantity and unit price, and ids that count up from the order-line counter. |
| OrderProperties.SnapshotIdsFresh | src/main/java/com/example/menubackend/service/PedidoService.java:64-78 | The new order lines get increasing ids, and no line of a stored order already holds any of them. |
| OrderService.CopyLines | src/main/java/com/example/menubackend/service/PedidoService.java:62-76 | The checkout loop copies every line one-for-one and accumulates the running total. Its result is exactly the lines given and the sum of unit price × quantity. |
| OrderService.NewOrder | src/main/java/com/example/menubackend/service/PedidoService.java:56-76 | The new order belongs to the caller, is dated now and is PENDENTE. Its lines are the cart's lines verbatim, and its total is their sum. |
| OrderService.AddOrder | src/main/java/com/example/menubackend/service/PedidoService.java:78 | Saving an order whose total is the sum of its lines keeps the store valid and adds exactly that order under the next id. |
| OrderService.PlaceOrder | src/main/java/com/example/menubackend/service/PedidoService.java:56-82 | Checkout's write keeps the store valid: the order's total is the sum of its lines, its lines reference existing products and take fresh ids, and the ordered cart keeps no lines. The cart's lines are deleted, the new order is added, and nothing else changes. |
| OrderService.Finalize | src/main/java/com/example/menubackend/service/PedidoService.java:45-85 | Fails only with user-not-found, cart-not-found or empty-cart. On success it answers a new PENDENTE order of the caller, under an id no earlier order had, as stored. |
| OrderService.UpdateStatus | src/main/java/com/example/menubackend/service/PedidoService.java:89-98 | Fails with order-not-found exactly when the order is missing. Otherwise that order now has the new status and the answer shows it. |
| OrderService.GetById | src/main/java/com/example/menubackend/service/PedidoService.java:101-104 | Finds something exactly when the order exists, and then answers that order's response: its id, its owner and the rest of the conversion. |
| OrderService.NewestOrdersAreOrders | src/main/java/com/example/menubackend/repository/PedidoRepository.java:10 | The newest-first list holds only orders of the given user. |
| OrderService.ViewOrders | src/main/java/com/example/menubackend/service/PedidoService.java:108-110 | One response per id, in order. Each shows its own order's id, owner, date, status and stored total, and its line subtotals add up to that total. |
| OrderService.GetByUser | src/main/java/com/example/menubackend/service/PedidoService.java:107-111 | One response per order in the newest-first list, in that order, each of the given user, and each being that order's full response. |
| OrderService.GetAll | src/main/java/com/example/menubackend/service/PedidoService.java:114-118 | One response per stored order, in id order, each being that order's full response. |
| OrderProperties.FinalizeFailures | src/main/java/com/example/menubackend/service/PedidoService.java:46-54 | Checkout fails, creating nothing, for an unknown user, a user without a cart, and an empty cart, checked in that order. It fails in no other case. |
| OrderProperties.FinalizeCreatesOrder | src/main/java/com/example/menubackend/service/PedidoService.java:56-84 | A non-empty cart becomes one new order under a fresh id. The order is the caller's, dated now and PENDENTE, with lines one-for-one and in order equal to the cart's (same product, quantity and unit price). The order's total is the sum of unit price × quantity. The cart keeps its record but loses every line. Other carts' lines, users, products and carts are unchanged. The answer shows that order. |
| OrderProperties.PlaceOrderStores | src/main/java/com/example/menubackend/service/PedidoService.java:56-78 | The stored order's owner, date, status, lines and total are as the checkout built them. |
| OrderProperties.PlaceOrderEmpties | src/main/java/com/example/menubackend/service/PedidoService.java:81-82 | Checkout deletes exactly the lines of the ordered cart. |
| OrderProperties.FinalizeTwiceFails | src/main/java/com/example/menubackend/service/PedidoService.java:52-54 | Checking out twice in a row: the second attempt fails on the empty cart. |
| OrderProperties.CheckoutLoopAgrees | src/main/java/com/example/menubackend/service/PedidoService.java:62-76 | Running the loop on the cart's lines yields exactly the snapshot checkout stores and the sum of the cart's subtotals. |
| OrderProperties.UpdateStatusMissing | src/main/java/com/example/menubackend/service/PedidoService.java:90-91 | Relabelling a missing order fails. |
| OrderProperties.UpdateStatusSets | src/main/java/com/example/menubackend/service/PedidoService.java:95-97 | Any status may replace any other. Only the status of that order changes; its owner, date, lines and total, all other orders and all other tables stay as they were. |
| OrderProperties.UpdateStatusIdempotent | src/main/java/com/example/menubackend/service/PedidoService.java:95 | Setting the status an order already has leaves the store unchanged. |
| OrderProperties.OrderViewTotals | src/main/java/com/example/menubackend/service/PedidoService.java:128-139 | An order's response lines' subtotals add up to the total stored with it, which is the sum of its lines. |
| OrderProperties.NewestOrdersOfIs | src/main/java/com/example/menubackend/repository/PedidoRepository.java:10 | The user's order list holds exactly that user's orders, each once. |
| OrderProperties.GetByUserLists | src/main/java/com/example/menubackend/service/PedidoService.java:107-110 | The user's order list holds all of that user's orders and only theirs, each once, with dates not increasing (newest first). |
| OrderProperties.GetAllLists | src/main/java/com/example/menubackend/service/PedidoService.java:114-117 | The full list holds every order exactly once, in id order. |
| OrderController.ToUpper | src/main/java/com/example/menubackend/controller/PedidoController.java:105 | Upper-casing keeps the length. A lower-case ASCII letter becomes its capital, every other character is kept, and no lower-case ASCII letter is left. |
| OrderController.ToUpperIdempotent | src/main/java/com/example/menubackend/controller/PedidoController.java:105 | Upper-casing an upper-cased string changes nothing. |
| OrderController.ParseStatus | src/main/java/com/example/menubackend/controller/PedidoController.java:105 | A string parses to a status exactly when its upper-cased form is that status's name. |
| OrderController.StatusNamesRoundTrip | src/main/java/com/example/menubackend/controller/PedidoController.java:105 | Each status name parses back to that status, and no two statuses share a name. |
| OrderController.ParseIgnoresCase | src/main/java/com/example/menubackend/controller/PedidoController.java:105 | Strings equal up to case parse alike. |
| OrderController.LowerCaseParses | src/main/java/com/example/menubackend/controller/PedidoController.java:105 | Any spelling whose upper-casing is a status name parses to that status, "pendente" for example. |
| OrderController.LoggedUser | src/main/java/com/example/menubackend/controller/PedidoController.java:49-50 | The logged-in user is found exactly when some user's email is the token's username, and it is that user. |
| OrderController.GetAllPedidos | src/main/java/com/example/menubackend/controller/PedidoController.java:35-40 | The answer is 403 exactly without the ADMIN authority. With it, the answer is 200 with all orders. |
| OrderController.FinalizarPedido | src/main/java/com/example/menubackend/controller/PedidoController.java:46-55 | The answer is 403 exactly without the CLIENTE authority. Unless the answer is 200, nothing is written. A 200 answers the checkout of the logged-in user. |
| OrderController.FinalizarPedidoOutcomes | src/main/java/com/example/menubackend/controller/PedidoController.java:46-55 | With CLIENTE, an unknown caller throws user-not-found and writes nothing. For a known caller the answer is 200 exactly when their checkout succeeds, and is then that checkout's store and order; a failed checkout's error is thrown and nothing is written. |
| OrderController.GetMeusPedidos | src/main/java/com/example/menubackend/controller/PedidoController.java:61-70 | The answer is 403 exactly without CLIENTE or ADMIN. Past that gate, an unknown caller throws user-not-found, and a known caller gets 200 with their own orders. |
| OrderController.UpdatePedidoStatus | src/main/java/com/example/menubackend/controller/PedidoController.java:100-115 | The store stays valid. |
| OrderController.GetPedidoById | src/main/java/com/example/menubackend/controller/PedidoController.java:76-95 | Neither role gives 403. Past the gate, a missing order throws order-not-found, and an unknown caller email throws user-not-found. Otherwise the answer is 403 exactly when the caller's stored roles lack ADMIN and they did not place the order, and is that order's response when it is not 403. |
| OrderController.GetPedidoByIdMissingFirst | src/main/java/com/example/menubackend/controller/PedidoController.java:79-80 | A missing order fails before the caller is looked up or any ownership check is made. |
| OrderController.GetPedidoByIdAccess | src/main/java/com/example/menubackend/controller/PedidoController.java:82-94 | A caller past the gate gets 403 exactly when their stored roles lack ADMIN and they did not place the order. Otherwise they get the order. |
| OrderController.GetPedidoByIdGate | src/main/java/com/example/menubackend/controller/PedidoController.java:77 | A caller with neither role is refused. |
| OrderController.UpdatePedidoStatusOutcomes | src/main/java/com/example/menubackend/controller/PedidoController.java:105-114 | For an ADMIN: an unrecognised name is 400 and writes nothing; a recognised name on a missing order is 404 and writes nothing; otherwise that order gets that status. |
| OrderController.UpdatePedidoStatusGate | src/main/java/com/example/menubackend/controller/PedidoController.java:101 | Without ADMIN the answer is 403 and nothing changes. |
| JwtFilter.GetJwtFromRequest | src/main/java/com/example/menubackend/security/JwtAuthenticationFilter.java:85-91 | A token is extracted exactly when the header is present and starts with "Bearer ". The header is then "Bearer " followed by the token. |
| JwtFilter.BearerRoundTrip | src/main/java/com/example/menubackend/security/JwtAuthenticationFilter.java:88 | The header "Bearer " + t yields exactly t. |
| JwtFilter.BearerIsExact | src/main/java/com/example/menubackend/security/JwtAuthenticationFilter.java:86-87 | No header, a lower-case prefix, a missing space or a leading space yields no token. |
| JwtFilter.Authenticate | src/main/java/com/example/menubackend/security/JwtAuthenticationFilter.java:40-69 | A principal is built exactly when a token was extracted, the provider accepts it, its subject is non-empty and every role has text. The principal's name is the subject and its authorities are exactly the token's roles. |
| JwtFilter.DoFilterInternal | src/main/java/com/example/menubackend/security/JwtAuthenticationFilter.java:33-83 | The chain always continues. Whenever the token yields no principal (no token, a rejected token, or processing that throws), the security context is left as it was. Otherwise it becomes the principal the token yields. |
| JwtFilter.ValidTokenAuthenticates | src/main/java/com/example/menubackend/security/JwtAuthenticationFilter.java:43-69 | An accepted, well-formed token authenticates its subject with exactly its roles. |
| JwtFilter.BlankRoleAuthenticatesNobody | src/main/java/com/example/menubackend/security/JwtAuthenticationFilter.java:51-79 | A blank role makes the authority constructor throw. The exception is swallowed, whatever the context held stays, and the chain continues. |
| ProductService.DataRoundTrip | src/main/java/com/example/menubackend/service/ProdutoService.java:88-92 | Converting a product to its DTO and back loses nothing, and the same holds the other way for a DTO with that id. |
| ProductService.Insert | src/main/java/com/example/menubackend/service/ProdutoService.java:33 | Saving a new product keeps the store valid. It adds exactly that product, under a fresh id. |
| ProductService.Overwrite | src/main/java/com/example/menubackend/service/ProdutoService.java:64-65 | Saving an existing product keeps the store valid, since no key or reference changes. It replaces that product's fields and nothing else. |
| ProductService.CreateProduto | src/main/java/com/example/menubackend/service/ProdutoService.java:22-38 | The answer carries the fresh id and always some availability. |
| ProductService.CreateProdutoStores | src/main/java/com/example/menubackend/service/ProdutoService.java:25-33 | Creating stores one new product under a fresh id and changes no existing one. Its fields are the DTO's, except that a missing availability becomes true. |
| ProductService.CreateProdutoIgnoresId | src/main/java/com/example/menubackend/service/ProdutoService.java:27 | The incoming id has no effect on what is created. |
| ProductService.ToDataAll | src/main/java/com/example/menubackend/service/ProdutoService.java:42-44 | One DTO per id, in order. Each carries that product's id and exactly its stored fields. |
| ProductService.GetAllProdutos | src/main/java/com/example/menubackend/service/ProdutoService.java:41-45 | The list has one entry per stored product, every product appears, and each entry shows that product's fields. |
| ProductService.AllProductsListed | src/main/java/com/example/menubackend/service/ProdutoService.java:41-45 | The full id list has exactly as many entries as there are products, and every stored product appears in the converted list. |
| ProductService.GetActiveProdutos | src/main/java/com/example/menubackend/service/ProdutoService.java:48-52 | Every listed entry is an available stored product showing that product's id and fields, and no product is listed twice. |
| ProductService.ActiveProdutosAre | src/main/java/com/example/menubackend/repository/ProdutoRepository.java:9 | The active list holds exactly the products whose availability is true. Null and false are both excluded. |
| ProductService.GetProdutoById | src/main/java/com/example/menubackend/service/ProdutoService.java:55-58 | Finds something exactly when the product exists, and then shows its fields. |
| ProductService.UpdateProduto | src/main/java/com/example/menubackend/service/ProdutoService.java:61-68 | Fails with product-not-found exactly when the product is missing. |
| ProductService.UpdateProdutoEffect | src/main/java/com/example/menubackend/service/ProdutoService.java:62-67 | Otherwise every field but the id is replaced by the DTO's, nulls included, and no other product changes. |
| ProductService.DeleteProduto | src/main/java/com/example/menubackend/service/ProdutoService.java:71-76 | Fails exactly when the product is missing or a line still refers to it. On success the product is gone. |
| ProductService.DeleteProdutoEffect | src/main/java/com/example/menubackend/service/ProdutoService.java:72-75 | A missing product is not-found. A referenced one cannot be deleted. Otherwise exactly that product is removed and nothing else changes. |
| ProductService.ToggleDisponibilidade | src/main/java/com/example/menubackend/service/ProdutoService.java:79-85 | Fails exactly when the product is missing. Otherwise its availability is the given value. |
| ProductService.ToggleEffect | src/main/java/com/example/menubackend/service/ProdutoService.java:80-84 | Toggling changes only that product's availability flag. A missing id is an error. |
| ProductController.FindAll | src/main/java/com/example/menubackend/controller/ProdutoController.java:27-34 | Answers 200 with one entry per stored product, every product present, each showing its fields. |
| ProductController.FindById | src/main/java/com/example/menubackend/controller/ProdutoController.java:36-42 | The answer is 404 exactly for a missing id. For an existing id it is 200 with the product and its id. |
| ProductController.Save | src/main/java/com/example/menubackend/controller/ProdutoController.java:46-56 | Anything but 201 writes nothing. |
| ProductController.Update | src/main/java/com/example/menubackend/controller/ProdutoController.java:58-79 | Anything but 200 writes nothing. |
| ProductController.Delete | src/main/java/com/example/menubackend/controller/ProdutoController.java:81-86 | The store stays valid. |
| ProductController.SaveOutcomes | src/main/java/com/example/menubackend/controller/ProdutoController.java:50-55 | A body carrying an id is 400 and stores nothing. Otherwise its fields are stored as sent under a fresh id, with no availability default, and the answer is 201. |
| ProductController.UpdateOutcomes | src/main/java/com/example/menubackend/controller/ProdutoController.java:62-78 | A missing or different body id is 400. A missing product is 404, and both write nothing. Otherwise the six fields are replaced and the id is kept. |
| ProductController.DeleteMissingIsNoOp | src/main/java/com/example/menubackend/controller/ProdutoController.java:83-85 | Deleting a missing id changes nothing and answers 204. |
| ProductController.WritesNeedAdmin | src/main/java/com/example/menubackend/controller/ProdutoController.java:47 | Without ADMIN, save, update and delete answer 403 and change nothing. |
| Registration.Utf16Length | src/main/java/com/example/menubackend/dto/UserRegisterDTO.java:11 | The length counted by the size rule is between the number of characters and twice it. It equals the number of characters when all of them are in the Basic Multilingual Plane. |
| Registration.WhitespaceIsBlank | src/main/java/com/example/menubackend/dto/UserRegisterDTO.java:10-21 | A value made only of spaces fails every field, whatever its length. |
| Registration.BlankNameRefused | src/main/java/com/example/menubackend/dto/UserRegisterDTO.java:10-12 | A three-character blank name is refused while "Ana" is accepted: blankness, not length, decides. |
| Registration.RegisterUser | src/main/java/com/example/menubackend/controller/AuthController.java:66-104 | The answer is 400 or 201, a 400 writes nothing, and the store stays valid (usernames and emails stay unique). |
| Registration.RegisterUserOutcome | src/main/java/com/example/menubackend/controller/AuthController.java:69-96 | Sign-up succeeds exactly when the form is valid and no user has the email as username or as email. The new user has the email as username and email, the submitted name, the encoded password and exactly the role CLIENTE. No existing user changes. |
| Registration.RegisterTwiceRefused | src/main/java/com/example/menubackend/controller/AuthController.java:69-78 | Registering the same email again is refused and writes nothing. |
| UserService.UpdateUserRole | src/main/java/com/example/menubackend/service/UserService.java:20-32 | Fails exactly for a missing user. Otherwise that user's roles become exactly the new role, nothing else of theirs changes, and no other user changes. |
| UserService.IsAdmin | src/main/java/com/example/menubackend/service/UserService.java:35-39 | Fails exactly for a missing user. Otherwise the answer is true iff ADMIN is among their roles. |
| UserService.FindUserByEmail | src/main/java/com/example/menubackend/service/UserService.java:45-48 | Fails exactly when no user has the email. Otherwise it finds a user with that email. |
| UserService.RoleReplacementDecidesAdmin | src/main/java/com/example/menubackend/service/UserService.java:27-38 | After replacing the roles, the user is an admin exactly when the new role is ADMIN, whatever roles they had before. |
| Store.CartOfIs | src/main/java/com/example/menubackend/model/Carrinho.java:20-22 | The cart lookup by user finds a cart exactly when that cart is the user's (one cart per user). |
| Store.ItemForIs | src/main/java/com/example/menubackend/service/CarrinhoService.java:70 | The line lookup by cart and product finds a line exactly when that line is of that cart and product. |
| Store.UserByEmailIs | src/main/java/com/example/menubackend/repository/UserRepository.java:11 | The lookup by email finds a user exactly when that user has the email. |
| Store.ExistsIff | src/main/java/com/example/menubackend/repository/UserRepository.java:14-15 | The existence checks by username and by email hold exactly when some user has that username or email. |
| Scenarios.AddAddUpdateScenario | src/main/java/com/example/menubackend/service/CarrinhoService.java:59-122 | Starting from an empty cart: adding 2 of a 35.00 product gives total 70.00; adding 1 more merges into a line of 3 with total 105.00; setting that line to 0 leaves no lines and total 0. |
| Scenarios.CheckoutScenario | src/main/java/com/example/menubackend/service/PedidoService.java:45-85 | A cart of 2 × 35.00 and 1 × 20.00 checks out into an order of two lines totalling 90.00, and the cart is left empty. |

## Left out

Not modelled:

- JSON Web Token signing, parsing and validation (JwtTokenProvider, JwtKeyGenerator). These are library code; the filter sees them as an opaque `TokenProvider`.
- The 401 entry point (JwtAuthenticationEntryPoint): it only writes an error body.
- Login (AuthController.authenticateUser): it delegates to Spring's authentication manager.
- CarrinhoController: it maps the logged-in email to a user id and delegates, and its endpoints are the service operations modelled here.
- DataInitializer, the payload classes and UserLoginDTO: seed data and unused or trivial shapes.
- Logging, and the `Location` header of the sign-up answer. Neither affects state or status.
- Concurrency, lost updates and the persistence context's caching. Each call is one atomic step on the store, and its response is computed from the store it leaves behind.
- `LocalDateTime.now()`: the time is a parameter.
- Orders with equal dates: the newest-first list may put them in any order among themselves, and the model proves only that dates do not increase.
- The `StatusPedido` and `Categoria` enums: their sources are not part of this model. The statuses are PENDENTE, CANCELADO and FINALIZADO, and the category is a string.
- Null strings and the null id of a path variable. Null prices and null availabilities are modelled (`Option`).
- Requests by unauthenticated callers: they reach no gated endpoint, and the model starts at the gate.
- The `findAll` order: it is taken to be id order.
- The order of a cart's lines and of an order's lines: the entities map them as plain lists with no `@OrderBy` or `@OrderColumn`, so the database decides it. The model takes ascending id order. Checkout's line-by-line copy, `CartProperties.LinesOfAfterNewLine` and `CartProperties.LinesOfSameRows` rest on that choice. The source promises the same set of lines, not this order.

Weaker on purpose:

- OrderController.ToUpper: upper-cases only ASCII letters. Java's `toUpperCase` also maps other letters and depends on the default locale (for example the Turkish dotless i), so non-ASCII status strings are not modelled.
- JwtFilter.Authenticate: "has text" treats only ASCII whitespace as blank; other Unicode whitespace is not modelled.
- Registration.RegisterUser: the email format check (`@Email`) and the password encoder are opaque parameters, not Hibernate's and BCrypt's algorithms.
- CartService.AddItem: the quantity is an unbounded integer, so Java's `Integer` wrap-around on old + delta is not modelled.
- CartService.ClearCart: its contract states only that the store stays valid. The effect on the item table is stated by CartProperties.ClearCartEmpties.
- OrderController.UpdatePedidoStatus: its contract states only that the store stays valid. The outcomes are stated by OrderController.UpdatePedidoStatusOutcomes and UpdatePedidoStatusGate.
- ProductController.Delete: its contract states only that the store stays valid. The outcomes are stated by DeleteMissingIsNoOp, WritesNeedAdmin and ProductService.DeleteProdutoEffect.

=== FILE: cart_properties.dfy ===
/**
  What the cart operations of `CarrinhoService` do to the store, stated on
  the tables themselves rather than through the repository queries the
  operations run.
*/
module CartProperties {
  import opened Outcomes
  import opened Keys
  import opened Money
  import opened Store
  import opened CartService

  /** Apart from the item table, the only change is cart `c`'s last-updated stamp. */
  ghost predicate ItemsAndStampOnly(s: Store, s': Store, c: Id, now: Time) {
    && c in s.carts
    && s' == s.(items := s'.items, nextItem := s'.nextItem,
                carts := s.carts[c := s.carts[c].(updated := now)])
  }

  /** Two item tables hold the same rows everywhere except possibly at `i`. */
  ghost predicate SameItemsExcept(a: map<Id, CartItem>, b: map<Id, CartItem>, i: Id) {
    && (forall j :: j != i ==> (j in a <==> j in b))
    && (forall j :: j != i && j in a && j in b ==> a[j] == b[j])
  }

  lemma SameAfterRemove(a: map<Id, CartItem>, i: Id)
    ensures SameItemsExcept(a, a - {i}, i)
  {
  }

  lemma SameAfterUpdate(a: map<Id, CartItem>, i: Id, v: CartItem)
    ensures SameItemsExcept(a, a[i := v], i)
  {
  }

  // ---------------------------------------------------------------------
  // The lines of a cart after an item-table change.
  // ---------------------------------------------------------------------

  /** A line saved under the next item id comes last in its cart. */
  lemma LinesOfAfterNewLine(s: Store, s': Store, c: Id, l: Line)
    requires KeysBelowCounters(s) && KeysBelowCounters(s')
    requires s'.items == s.items[s.nextItem := CartItem(c, l)]
    ensures LinesOf(s', c) == LinesOf(s, c) + [s.nextItem]
  {
    var xs := LinesOf(s, c) + [s.nextItem];
    forall a, b | 0 <= a < b < |xs|
      ensures xs[a] < xs[b]
    {
      if b == |xs| - 1 {
        assert xs[a] in LinesOf(s, c);
      }
    }
    assert s.nextItem in s'.items;
    assert s.nextItem < s'.nextItem;
    forall k
      ensures k in xs <==> k < s'.nextItem && k in s'.items && InCart(c, s'.items[k])
    {
      if k == s.nextItem {
        assert xs[|xs| - 1] == k;
      } else {
        assert (k in xs) == (k in LinesOf(s, c));
        if k in s.items {
          assert s'.items[k] == s.items[k];
        }
      }
    }
    KeysWhereIs(s'.items, it => InCart(c, it), s'.nextItem, xs);
  }

  /** If the same rows point at cart `c`, the cart has the same lines in the same order. */
  lemma LinesOfSameRows(s: Store, s': Store, c: Id)
    requires KeysBelowCounters(s) && KeysBelowCounters(s')
    requires forall j :: (j in s'.items && s'.items[j].cart == c) <==> (j in s.items && s.items[j].cart == c)
    ensures LinesOf(s', c) == LinesOf(s, c)
  {
    KeysWhereIs(s'.items, it => InCart(c, it), s'.nextItem, LinesOf(s, c));
  }

  // ---------------------------------------------------------------------
  // getOrCreateCarrinho
  // ---------------------------------------------------------------------

  /** An unknown user is an error. */
  lemma GetOrCreateCartUnknownUser(s: Store, u: Id, now: Time)
    requires Valid(s) && u !in s.users
    ensures GetOrCreateCart(s, u, now) == Err(UserNotFound)
  {
  }

  /** A user who has a cart gets that cart back, and nothing is written. */
  lemma GetOrCreateCartExisting(s: Store, u: Id, now: Time, c: Id)
    requires Valid(s) && c in s.carts && s.carts[c].owner == u
    ensures GetOrCreateCart(s, u, now) == Ok((s, ViewCart(s, c)))
  {
    CartOfIs(s, u, c);
  }

  /**
    A user without a cart gets exactly one new cart: it is owned by that
    user, stamped with the current time, empty, and nothing else changes.
  */
  lemma GetOrCreateCartCreates(s: Store, u: Id, now: Time)
    requires Valid(s) && u in s.users && !HasCart(s, u)
    ensures GetOrCreateCart(s, u, now).Ok?
    ensures var (s', v) := GetOrCreateCart(s, u, now).value;
      && s.nextCart !in s.carts
      && s' == s.(carts := s.carts[s.nextCart := Cart(u, now, now)], nextCart := s.nextCart + 1)
      && v.id == s.nextCart && v.userId == u
      && v.lines == [] && v.total == 0
  {
    CartOfNone(s, u);
    var (s', v) := GetOrCreateCart(s, u, now).value;
    LinesOfMembers(s', s.nextCart);
    NoMembersEmpty(LinesOf(s', s.nextCart));
  }

  // ---------------------------------------------------------------------
  // addItemToCarrinho
  // ---------------------------------------------------------------------

  /**
    Adding fails, writing nothing, when the user has no cart (it never
    creates one), when the product does not exist, and when the product's
    availability is false (or null, which the source unboxes and throws on).
  */
  lemma AddItemFailures(s: Store, u: Id, p: Id, qty: int, now: Time)
    requires Valid(s)
    ensures !HasCart(s, u) ==> AddItem(s, u, p, qty, now) == Err(CartNotFound)
    ensures HasCart(s, u) && p !in s.products ==> AddItem(s, u, p, qty, now) == Err(ProductNotFound)
    ensures HasCart(s, u) && p in s.products && s.products[p].disponibilidade == Some(false) ==>
      AddItem(s, u, p, qty, now) == Err(ProductUnavailable)
    ensures HasCart(s, u) && p in s.products && s.products[p].disponibilidade == None ==>
      AddItem(s, u, p, qty, now) == Err(NullField)
  {
    CartOfNone(s, u);
  }

  /** Once the cart and the product pass the checks, adding is `PutLine` followed by the stamp. */
  lemma AddItemUnfolds(s: Store, u: Id, p: Id, qty: int, now: Time, c: Id)
    requires Valid(s) && c in s.carts && s.carts[c].owner == u
    requires p in s.products && s.products[p].disponibilidade == Some(true)
    ensures AddItem(s, u, p, qty, now).Ok? <==> PutLine(s, c, p, qty).Ok?
    ensures PutLine(s, c, p, qty).Ok? ==>
      AddItem(s, u, p, qty, now).value.0 == Touch(PutLine(s, c, p, qty).value, c, now)
  {
    CartOfIs(s, u, c);
    assert CartFor(s, u) == Ok(c);
    var r := PutLine(s, c, p, qty);
    if r.Ok? {
      var s2 := Touch(r.value, c, now);
      assert AddItem(s, u, p, qty, now) == Ok((s2, ViewCart(s2, c)));
    } else {
      assert AddItem(s, u, p, qty, now) == Err(r.error);
    }
  }

  /** `PutLine` into a cart that already has a line of the product merges into that line. */
  lemma PutLineMerges(s: Store, c: Id, p: Id, qty: int, i: Id)
    requires Valid(s) && c in s.carts && p in s.products
    requires i in s.items && s.items[i].cart == c && s.items[i].line.product == p
    ensures PutLine(s, c, p, qty) == Ok(SetQuantity(s, i, s.items[i].line.quantity + qty))
  {
    ItemForIs(s, c, p, i);
  }

  /** After `SetQuantity`, only row `i` differs, and it is gone or carries the new quantity. */
  lemma SetQuantityEffect(s: Store, i: Id, q: int)
    requires Valid(s) && i in s.items
    ensures var s' := SetQuantity(s, i, q);
      && s' == s.(items := s'.items)
      && SameItemsExcept(s.items, s'.items, i)
      && (q <= 0 ==> i !in s'.items)
      && (q > 0 ==> i in s'.items && s'.items[i] == s.items[i].(line := s.items[i].line.(quantity := q)))
  {
    var s' := SetQuantity(s, i, q);
    if q <= 0 {
      assert s'.items == s.items - {i};
      SameAfterRemove(s.items, i);
    } else {
      assert s'.items == s.items[i := s.items[i].(line := s.items[i].line.(quantity := q))];
      SameAfterUpdate(s.items, i, s.items[i].(line := s.items[i].line.(quantity := q)));
    }
  }

  /**
    Adding a product that already has a line raises that line's quantity
    by the delta and keeps its unit price; if the sum is zero or less the
    line is deleted. No other line changes and no line is created.
  */
  lemma AddItemMerges(s: Store, u: Id, p: Id, qty: int, now: Time, c: Id, i: Id)
    requires Valid(s) && c in s.carts && s.carts[c].owner == u
    requires p in s.products && s.products[p].disponibilidade == Some(true)
    requires i in s.items && s.items[i].cart == c && s.items[i].line.product == p
    ensures AddItem(s, u, p, qty, now).Ok?
    ensures var s' := AddItem(s, u, p, qty, now).value.0;
      var q := s.items[i].line.quantity + qty;
      && ItemsAndStampOnly(s, s', c, now)
      && s'.nextItem == s.nextItem
      && SameItemsExcept(s.items, s'.items, i)
      && (q <= 0 ==> i !in s'.items)
      && (q > 0 ==> i in s'.items && s'.items[i] == CartItem(c, Line(p, q, s.items[i].line.unitPrice)))
  {
    PutLineMerges(s, c, p, qty, i);
    AddItemUnfolds(s, u, p, qty, now, c);
    SetQuantityEffect(s, i, s.items[i].line.quantity + qty);
  }

  /**
    Adding a product the cart has no line for creates exactly one line,
    under a fresh id, with the given quantity and the product's current
    price.
  */
  lemma AddItemCreatesLine(s: Store, u: Id, p: Id, qty: int, now: Time, c: Id)
    requires Valid(s) && c in s.carts && s.carts[c].owner == u
    requires p in s.products && s.products[p].disponibilidade == Some(true)
    requires s.products[p].preco.Some?
    requires forall j :: j in s.items && s.items[j].cart == c ==> s.items[j].line.product != p
    requires qty > 0
    ensures AddItem(s, u, p, qty, now).Ok?
    ensures var s' := AddItem(s, u, p, qty, now).value.0;
      && ItemsAndStampOnly(s, s', c, now)
      && s.nextItem !in s.items
      && s'.items == s.items[s.nextItem := CartItem(c, Line(p, qty, s.products[p].preco.value))]
      && s'.nextItem == s.nextItem + 1
  {
    CartOfIs(s, u, c);
    ItemForNone(s, c, p);
  }

  /**
    Adding a product the cart has no line for with a delta of zero or less
    stores nothing: the new line would be deleted before it exists.
  */
  lemma AddItemNonPositiveNew(s: Store, u: Id, p: Id, qty: int, now: Time, c: Id)
    requires Valid(s) && c in s.carts && s.carts[c].owner == u
    requires p in s.products && s.products[p].disponibilidade == Some(true)
    requires forall j :: j in s.items && s.items[j].cart == c ==> s.items[j].line.product != p
    requires qty <= 0
    ensures AddItem(s, u, p, qty, now).Ok?
    ensures var s' := AddItem(s, u, p, qty, now).value.0;
      ItemsAndStampOnly(s, s', c, now) && s'.items == s.items && s'.nextItem == s.nextItem
  {
    CartOfIs(s, u, c);
    ItemForNone(s, c, p);
  }

  /** A new line for a product with a null price cannot be saved (NOT NULL unit price). */
  lemma AddItemNullPrice(s: Store, u: Id, p: Id, qty: int, now: Time, c: Id)
    requires Valid(s) && c in s.carts && s.carts[c].owner == u
    requires p in s.products && s.products[p].disponibilidade == Some(true)
    requires s.products[p].preco.None?
    requires forall j :: j in s.items && s.items[j].cart == c ==> s.items[j].line.product != p
    requires qty > 0
    ensures AddItem(s, u, p, qty, now) == Err(NullField)
  {
    CartOfIs(s, u, c);
    ItemForNone(s, c, p);
  }

  // ---------------------------------------------------------------------
  // updateItemQuantity and removeItemFromCarrinho
  // ---------------------------------------------------------------------

  /**
    Updating and removing fail, writing nothing, when the user has no
    cart, when the item does not exist, and when the item belongs to a
    cart other than the caller's.
  */
  lemma ItemOperationFailures(s: Store, u: Id, i: Id, qty: int, now: Time)
    requires Valid(s)
    ensures !HasCart(s, u) ==>
      UpdateItemQuantity(s, u, i, qty, now) == Err(CartNotFound) &&
      RemoveItem(s, u, i, now) == Err(CartNotFound)
    ensures HasCart(s, u) && i !in s.items ==>
      UpdateItemQuantity(s, u, i, qty, now) == Err(ItemNotFound) &&
      RemoveItem(s, u, i, now) == Err(ItemNotFound)
    ensures HasCart(s, u) && i in s.items && s.carts[s.items[i].cart].owner != u ==>
      UpdateItemQuantity(s, u, i, qty, now) == Err(ItemNotInCart) &&
      RemoveItem(s, u, i, now) == Err(ItemNotInCart)
  {
    CartOfNone(s, u);
  }

  /**
    Updating sets the line's quantity to the given value (not a delta),
    keeping its product and price; a value of zero or less deletes it.
    No other line changes, and the response is the cart as now stored.
  */
  lemma UpdateItemQuantitySets(s: Store, u: Id, i: Id, qty: int, now: Time, c: Id)
    requires Valid(s) && c in s.carts && s.carts[c].owner == u
    requires i in s.items && s.items[i].cart == c
    ensures UpdateItemQuantity(s, u, i, qty, now).Ok?
    ensures var (s', v) := UpdateItemQuantity(s, u, i, qty, now).value;
      && ItemsAndStampOnly(s, s', c, now)
      && s'.nextItem == s.nextItem
      && SameItemsExcept(s.items, s'.items, i)
      && (qty <= 0 ==> i !in s'.items)
      && (qty > 0 ==> i in s'.items && s'.items[i] == CartItem(c, s.items[i].line.(quantity := qty)))
      && v == ViewCart(s', c)
  {
    CartOfIs(s, u, c);
    assert CartFor(s, u) == Ok(c);
    SetQuantityEffect(s, i, qty);
    var s2 := Touch(SetQuantity(s, i, qty), c, now);
    assert UpdateItemQuantity(s, u, i, qty, now) == Ok((s2, ViewCart(s2, c)));
  }

  /** Removing deletes exactly the named line; the cart record keeps all but its stamp. */
  lemma RemoveItemDeletes(s: Store, u: Id, i: Id, now: Time, c: Id)
    requires Valid(s) && c in s.carts && s.carts[c].owner == u
    requires i in s.items && s.items[i].cart == c
    ensures RemoveItem(s, u, i, now).Ok?
    ensures var (s', v) := RemoveItem(s, u, i, now).value;
      && ItemsAndStampOnly(s, s', c, now)
      && s'.items == s.items - {i}
      && s'.nextItem == s.nextItem
      && v == ViewCart(s', c)
  {
    CartOfIs(s, u, c);
  }

  // ---------------------------------------------------------------------
  // clearCarrinho and the cart response
  // ---------------------------------------------------------------------

  /** Clearing without a cart is an error. */
  lemma ClearCartNoCart(s: Store, u: Id, now: Time)
    requires Valid(s) && !HasCart(s, u)
    ensures ClearCart(s, u, now) == Err(CartNotFound)
  {
    CartOfNone(s, u);
  }

  /**
    Clearing deletes every line of the caller's cart and no other line;
    the cart itself remains, and other carts are untouched.
  */
  lemma ClearCartEmpties(s: Store, u: Id, now: Time, c: Id)
    requires Valid(s) && c in s.carts && s.carts[c].owner == u
    ensures ClearCart(s, u, now).Ok?
    ensures var s' := ClearCart(s, u, now).value;
      && ItemsAndStampOnly(s, s', c, now)
      && (forall j :: j in s'.items <==> j in s.items && s.items[j].cart != c)
      && (forall j :: j in s'.items ==> s'.items[j] == s.items[j])
      && LinesOf(s', c) == []
  {
    CartOfIs(s, u, c);
    var s' := ClearCart(s, u, now).value;
    LinesOfMembers(s', c);
    NoMembersEmpty(LinesOf(s', c));
  }

  /**
    The cart response lists every line with subtotal unit price times
    quantity, and its total is the sum of those subtotals: zero for a cart
    without lines.
  */
  lemma CartTotalIsSumOfLines(s: Store, u: Id, c: Id)
    requires Valid(s) && c in s.carts && s.carts[c].owner == u
    ensures GetCart(s, u).Ok?
    ensures var v := GetCart(s, u).value;
      && |v.lines| == |LinesOf(s, c)|
      && (forall k :: 0 <= k < |v.lines| ==>
            var l := s.items[LinesOf(s, c)[k]].line;
            v.lines[k].subtotal == l.unitPrice * l.quantity)
      && v.total == SumSubtotals(v.lines)
      && (LinesOf(s, c) == [] ==> v.total == 0)
  {
    CartOfIs(s, u, c);
    var v := GetCart(s, u).value;
    SumOfShownLines(v.lines, CartLines(s, c));
  }
}

=== FILE: cart_service.dfy ===
/**
  `CarrinhoService`: the per-user shopping cart. Every operation is one
  transaction on the store; it either fails (nothing is written) or
  yields the new store together with the response it returns.

  Adding is a delta merged into the existing line of that product, which
  keeps the price it was added at; updating sets the quantity outright;
  and a line whose quantity would drop to zero or below is deleted rather
  than stored. The cart total is never stored: each response recomputes it
  from the lines.
*/
module CartService {
  import opened Outcomes
  import opened Keys
  import opened Money
  import opened Store

  /** `CarrinhoResponseDTO`. */
  datatype CartView = CartView(
    id: Id,
    userId: Id,
    userName: string,
    lines: seq<LineView>,
    total: int)

  /** The stored contents of cart `c`'s lines, in the cart's order. */
  function CartLines(s: Store, c: Id): (lines: seq<Line>)
    ensures |lines| == |LinesOf(s, c)|
  {
    var ids := LinesOf(s, c);
    seq(|ids|, k requires 0 <= k < |ids| => s.items[ids[k]].line)
  }

  /** One response line, with the product's current name and image. */
  function ViewLine(s: Store, i: Id): LineView
    requires i in s.items && s.items[i].line.product in s.products
  {
    var l := s.items[i].line;
    var p := s.products[l.product];
    LineView(i, l.product, p.nome, p.imagem, l.quantity, l.unitPrice, l.unitPrice * l.quantity)
  }

  /** The response lines of rows `ids`, in order; they show those rows' lines and add up to their total. */
  function ViewLines(s: Store, ids: seq<Id>): (views: seq<LineView>)
    requires forall k :: 0 <= k < |ids| ==> ids[k] in s.items && s.items[ids[k]].line.product in s.products
    ensures |views| == |ids|
    ensures forall k :: 0 <= k < |views| ==>
      && views[k].id == ids[k]
      && views[k].productName == s.products[s.items[ids[k]].line.product].nome
      && views[k].productImage == s.products[s.items[ids[k]].line.product].imagem
    ensures Shows(views, seq(|ids|, k requires 0 <= k < |ids| => s.items[ids[k]].line))
    ensures SumSubtotals(views) == Total(seq(|ids|, k requires 0 <= k < |ids| => s.items[ids[k]].line))
  {
    var lines := seq(|ids|, k requires 0 <= k < |ids| => s.items[ids[k]].line);
    var views := seq(|ids|, k requires 0 <= k < |ids| => ViewLine(s, ids[k]));
    assert forall k :: 0 <= k < |views| ==> ContentOf(views[k]) == lines[k];
    SumOfShownLines(views, lines);
    views
  }

  /** `convertToDto`: the cart response, total recomputed from the lines. */
  function ViewCart(s: Store, c: Id): (v: CartView)
    requires Valid(s) && c in s.carts
    ensures v.id == c && v.userId == s.carts[c].owner
    ensures v.userName == s.users[s.carts[c].owner].name
    ensures |v.lines| == |LinesOf(s, c)|
    ensures forall k :: 0 <= k < |v.lines| ==>
      && v.lines[k].id == LinesOf(s, c)[k]
      && v.lines[k].productName == s.products[s.items[LinesOf(s, c)[k]].line.product].nome
      && v.lines[k].productImage == s.products[s.items[LinesOf(s, c)[k]].line.product].imagem
    ensures Shows(v.lines, CartLines(s, c))
    ensures v.total == Total(CartLines(s, c))
  {
    var ids := LinesOf(s, c);
    assert forall k :: 0 <= k < |ids| ==> ids[k] in s.items by {
      forall k | 0 <= k < |ids| ensures ids[k] in s.items { assert ids[k] in ids; }
    }
    var views := ViewLines(s, ids);
    CartView(c, s.carts[c].owner, s.users[s.carts[c].owner].name, views, SumSubtotals(views))
  }

  // ---------------------------------------------------------------------
  // Store updates shared by the operations.
  // ---------------------------------------------------------------------

  /** `findByUsuarioId(...).orElseThrow(...)`. */
  function CartFor(s: Store, u: Id): (r: Result<Id>)
    ensures r.Ok? ==> r.value in s.carts && s.carts[r.value].owner == u
    ensures r.Err? ==> r.error == CartNotFound
  {
    match CartOf(s, u)
    case None => Err(CartNotFound)
    case Some(c) => Ok(c)
  }

  /** `setDataAtualizacao(now)` on cart `c`. */
  function Touch(s: Store, c: Id, now: Time): (s': Store)
    requires Valid(s) && c in s.carts
    ensures Valid(s')
    ensures s'.carts == s.carts[c := s.carts[c].(updated := now)]
    ensures s' == s.(carts := s'.carts)
  {
    var s' := s.(carts := s.carts[c := s.carts[c].(updated := now)]);
    ValidAfterCarts(s, s');
    s'
  }

  /** Deletes item `i` from the item table. */
  function DropItem(s: Store, i: Id): (s': Store)
    requires Valid(s)
    ensures Valid(s')
    ensures s' == s.(items := s.items - {i})
  {
    var s' := s.(items := s.items - {i});
    ValidAfterItems(s, s');
    s'
  }

  /**
    The rule shared by adding and updating: a line whose new quantity is
    zero or less is deleted, otherwise it is saved with that quantity.
  */
  function SetQuantity(s: Store, i: Id, q: int): (s': Store)
    requires Valid(s) && i in s.items
    ensures Valid(s')
    ensures q <= 0 ==> s' == s.(items := s.items - {i})
    ensures q > 0 ==> s' == s.(items := s.items[i := s.items[i].(line := s.items[i].line.(quantity := q))])
  {
    if q <= 0 then DropItem(s, i)
    else
      ValidAfterQuantity(s, i, q);
      s.(items := s.items[i := s.items[i].(line := s.items[i].line.(quantity := q))])
  }

  /**
    The item-table effect of adding `qty` of product `p` to cart `c`:
    merge into the existing line, or create a line at the product's
    current price. A new line with a non-positive quantity is never saved
    (deleting a transient entity does nothing); a new line whose product
    has no price violates the NOT NULL unit-price column.
  */
  function PutLine(s: Store, c: Id, p: Id, qty: int): (r: Result<Store>)
    requires Valid(s) && c in s.carts && p in s.products
    ensures r.Ok? ==> Valid(r.value) && r.value.carts == s.carts
  {
    match ItemFor(s, c, p)
    case Some(i) => Ok(SetQuantity(s, i, s.items[i].line.quantity + qty))
    case None =>
      if qty <= 0 then Ok(s)
      else if s.products[p].preco.None? then Err(NullField)
      else Ok(NewLine(s, c, p, qty, s.products[p].preco.value))
  }

  /** Saves a new line of product `p` in cart `c` under the next item id. */
  function NewLine(s: Store, c: Id, p: Id, qty: int, price: int): (s': Store)
    requires Valid(s) && c in s.carts && p in s.products && qty > 0
    requires ItemFor(s, c, p).None?
    ensures Valid(s')
    ensures s' == s.(items := s.items[s.nextItem := CartItem(c, Line(p, qty, price))],
                     nextItem := s.nextItem + 1)
  {
    ItemForNone(s, c, p);
    ValidAfterNewItem(s, CartItem(c, Line(p, qty, price)));
    s.(items := s.items[s.nextItem := CartItem(c, Line(p, qty, price))], nextItem := s.nextItem + 1)
  }

  /** Deletes every line of cart `c` and nothing else. */
  function WithoutLinesOf(s: Store, c: Id): (s': Store)
    requires Valid(s)
    ensures Valid(s')
    ensures forall i :: i in s'.items <==> i in s.items && s.items[i].cart != c
    ensures forall i :: i in s'.items ==> s'.items[i] == s.items[i]
    ensures s' == s.(items := s'.items)
  {
    var s' := s.(items := map i | i in s.items && s.items[i].cart != c :: s.items[i]);
    ValidAfterItems(s, s');
    s'
  }

  // ---------------------------------------------------------------------
  // The service operations.
  // ---------------------------------------------------------------------

  /** `getOrCreateCarrinho`. */
  function GetOrCreateCart(s: Store, u: Id, now: Time): (r: Result<(Store, CartView)>)
    requires Valid(s)
    ensures r.Ok? ==> Valid(r.value.0)
    ensures r.Err? <==> u !in s.users
    ensures r.Err? ==> r.error == UserNotFound
    ensures r.Ok? ==> var (s', v) := r.value;
      v.id in s'.carts && v.userId == u && v == ViewCart(s', v.id)
  {
    if u !in s.users then Err(UserNotFound)
    else
      match CartOf(s, u)
      case Some(c) => Ok((s, ViewCart(s, c)))
      case None =>
        CartOfNone(s, u);
        var s' := s.(carts := s.carts[s.nextCart := Cart(u, now, now)], nextCart := s.nextCart + 1);
        Ok((s', ViewCart(s', s.nextCart)))
  }

  /** `addItemToCarrinho`. */
  function AddItem(s: Store, u: Id, p: Id, qty: int, now: Time): (r: Result<(Store, CartView)>)
    requires Valid(s)
    ensures r.Ok? ==> Valid(r.value.0)
    ensures r.Err? ==> r.error in {CartNotFound, ProductNotFound, NullField, ProductUnavailable}
    ensures r.Ok? ==> var (s', v) := r.value;
      v.id in s'.carts && v.userId == u && v == ViewCart(s', v.id)
  {
    var c :- CartFor(s, u);
    if p !in s.products then Err(ProductNotFound)
    else if s.products[p].disponibilidade.None? then Err(NullField)
    else if !s.products[p].disponibilidade.value then Err(ProductUnavailable)
    else
      var s1 :- PutLine(s, c, p, qty);
      var s2 := Touch(s1, c, now);
      Ok((s2, ViewCart(s2, c)))
  }

  /** `updateItemQuantity`: sets the quantity of one of the caller's lines outright. */
  function UpdateItemQuantity(s: Store, u: Id, i: Id, qty: int, now: Time): (r: Result<(Store, CartView)>)
    requires Valid(s)
    ensures r.Ok? ==> Valid(r.value.0)
    ensures r.Err? ==> r.error in {CartNotFound, ItemNotFound, ItemNotInCart}
    ensures r.Ok? ==> var (s', v) := r.value;
      v.id in s'.carts && v.userId == u && v == ViewCart(s', v.id)
  {
    var c :- CartFor(s, u);
    if i !in s.items then Err(ItemNotFound)
    else if s.items[i].cart != c then Err(ItemNotInCart)
    else
      var s2 := Touch(SetQuantity(s, i, qty), c, now);
      Ok((s2, ViewCart(s2, c)))
  }

  /** `removeItemFromCarrinho`. */
  function RemoveItem(s: Store, u: Id, i: Id, now: Time): (r: Result<(Store, CartView)>)
    requires Valid(s)
    ensures r.Ok? ==> Valid(r.value.0)
    ensures r.Err? ==> r.error in {CartNotFound, ItemNotFound, ItemNotInCart}
    ensures r.Ok? ==> var (s', v) := r.value;
      v.id in s'.carts && v.userId == u && v == ViewCart(s', v.id)
  {
    var c :- CartFor(s, u);
    if i !in s.items then Err(ItemNotFound)
    else if s.items[i].cart != c then Err(ItemNotInCart)
    else
      var s2 := Touch(DropItem(s, i), c, now);
      Ok((s2, ViewCart(s2, c)))
  }

  /** `clearCarrinho`: returns no body. */
  function ClearCart(s: Store, u: Id, now: Time): (r: Result<Store>)
    requires Valid(s)
    ensures r.Ok? ==> Valid(r.value)
  {
    var c :- CartFor(s, u);
    Ok(Touch(WithoutLinesOf(s, c), c, now))
  }

  /** `getCarrinho`. */
  function GetCart(s: Store, u: Id): (r: Result<CartView>)
    requires Valid(s)
    ensures r.Err? <==> forall c :: c in s.carts ==> s.carts[c].owner != u
    ensures r.Err? ==> r.error == CartNotFound
    ensures r.Ok? ==> r.value.id in s.carts && r.value.userId == u && r.value == ViewCart(s, r.value.id)
  {
    CartOfNone(s, u);
    var c :- CartFor(s, u);
    Ok(ViewCart(s, c))
  }
}

=== FILE: jwt_filter.dfy ===
/**
  `JwtAuthenticationFilter`: per request, read a bearer token from the
  `Authorization` header and, when the token provider accepts it, put a
  principal carrying the token's subject and roles into the security
  context. The request continues down the filter chain in every case.

  Signing and parsing of the token belong to the token provider, which
  is not part of this model: its three calls are parameters here, and a
  call that throws (or returns null) is `None`.
*/
module JwtFilter {
  import opened Outcomes

  /** The header value prefix, case-sensitive and with its trailing space. */
  const Bearer: string := "Bearer "

  predicate StartsWith(s: string, prefix: string) {
    |prefix| <= |s| && s[..|prefix|] == prefix
  }

  /** `getJwtFromRequest`: the rest of the header after the prefix, or nothing. */
  function GetJwtFromRequest(header: Option<string>): (token: Option<string>)
    ensures token.Some? <==> header.Some? && StartsWith(header.value, Bearer)
    ensures token.Some? ==> header.value == Bearer + token.value
  {
    if header.Some? && StartsWith(header.value, Bearer) then
      assert header.value == Bearer + header.value[|Bearer|..];
      Some(header.value[|Bearer|..])
    else None
  }

  /** Prefixing any token with the scheme and extracting it gives the token back. */
  lemma BearerRoundTrip(t: string)
    ensures GetJwtFromRequest(Some(Bearer + t)) == Some(t)
  {
    assert (Bearer + t)[..|Bearer|] == Bearer;
  }

  /** Only the exact prefix counts: other casing, a missing space or a bare scheme give no token. */
  lemma BearerIsExact(t: string)
    ensures GetJwtFromRequest(None) == None
    ensures GetJwtFromRequest(Some("bearer " + t)) == None
    ensures GetJwtFromRequest(Some("Bearer")) == None
    ensures GetJwtFromRequest(Some(" Bearer " + t)) == None
  {
    assert ("bearer " + t)[0] == 'b';
    assert (" Bearer " + t)[0] == ' ';
  }

  /** The authenticated caller as the security context holds it. */
  datatype Principal = Principal(username: string, authorities: set<string>)

  /** `hasRole(r)`: the caller holds the authority `ROLE_r`. */
  predicate HasRole(p: Principal, r: string) {
    "ROLE_" + r in p.authorities
  }

  /** `hasAnyRole(a, b)`. */
  predicate HasAnyRole(p: Principal, a: string, b: string) {
    HasRole(p, a) || HasRole(p, b)
  }

  /** The token provider's calls; `None` is an exception (or a null result). */
  datatype TokenProvider = TokenProvider(
    validate: string -> Option<bool>,
    usernameOf: string -> Option<string>,
    rolesOf: string -> Option<seq<string>>)

  /** `Character.isWhitespace` on the ASCII range. */
  predicate IsWhitespace(ch: char) {
    ch == ' ' || ('\t' <= ch <= '\r') || ('\U{1C}' <= ch <= '\U{1F}')
  }

  /** `StringUtils.hasText`: some character is not whitespace. */
  predicate HasText(s: string) {
    exists i :: 0 <= i < |s| && !IsWhitespace(s[i])
  }

  /**
    The principal the try block builds, or `None` when it sets nothing:
    no token, a token the provider rejects, or any exception on the way.
    Two of those exceptions come from the security library itself: a
    granted authority must have text, and a user's name must not be empty.
    The user keeps its authorities as a set, so repeated roles collapse.
  */
  function Authenticate(header: Option<string>, tp: TokenProvider): (r: Option<Principal>)
    ensures r.Some? <==>
      var jwt := GetJwtFromRequest(header);
      && jwt.Some? && tp.validate(jwt.value) == Some(true)
      && tp.usernameOf(jwt.value).Some? && tp.usernameOf(jwt.value).value != ""
      && tp.rolesOf(jwt.value).Some?
      && (forall k :: 0 <= k < |tp.rolesOf(jwt.value).value| ==> HasText(tp.rolesOf(jwt.value).value[k]))
    ensures r.Some? ==>
      var jwt := GetJwtFromRequest(header).value;
      && r.value.username == tp.usernameOf(jwt).value
      && (forall a :: a in r.value.authorities <==> a in tp.rolesOf(jwt).value)
  {
    var jwt := GetJwtFromRequest(header);
    if jwt.None? || tp.validate(jwt.value) != Some(true) then None
    else
      match tp.usernameOf(jwt.value)
      case None => None
      case Some(name) =>
        match tp.rolesOf(jwt.value)
        case None => None
        case Some(roles) =>
          if !(forall k :: 0 <= k < |roles| ==> HasText(roles[k])) then None
          else if name == "" then None
          else Some(Principal(name, set k | 0 <= k < |roles| :: roles[k]))
  }

  /** What `doFilterInternal` leaves behind: the security context and whether the chain continues. */
  datatype FilterResult = FilterResult(context: Option<Principal>, continues: bool)

  /** `doFilterInternal`, on the security context found when the request arrives. */
  function DoFilterInternal(context: Option<Principal>, header: Option<string>, tp: TokenProvider): (r: FilterResult)
    ensures r.continues
    ensures GetJwtFromRequest(header).None? ==> r.context == context
    ensures GetJwtFromRequest(header).Some? && tp.validate(GetJwtFromRequest(header).value) != Some(true) ==>
      r.context == context
    ensures r.context != context ==> Authenticate(header, tp) == r.context
    ensures Authenticate(header, tp).None? ==> r.context == context
  {
    match Authenticate(header, tp)
    case Some(p) => FilterResult(Some(p), true)
    case None => FilterResult(context, true)
  }

  /**
    A well-formed, accepted token authenticates its subject with exactly
    the token's roles as authorities, whatever the context held before.
  */
  lemma ValidTokenAuthenticates(context: Option<Principal>, t: string, tp: TokenProvider, name: string, roles: seq<string>)
    requires tp.validate(t) == Some(true)
    requires tp.usernameOf(t) == Some(name) && name != ""
    requires tp.rolesOf(t) == Some(roles)
    requires forall k :: 0 <= k < |roles| ==> HasText(roles[k])
    ensures DoFilterInternal(context, Some(Bearer + t), tp).context.Some?
    ensures var p := DoFilterInternal(context, Some(Bearer + t), tp).context.value;
      && p.username == name
      && (forall a :: a in p.authorities <==> a in roles)
  {
    BearerRoundTrip(t);
  }

  /**
    A blank role in an accepted token makes the filter throw internally:
    nobody is authenticated, and whatever the context held stays.
  */
  lemma BlankRoleAuthenticatesNobody(context: Option<Principal>, t: string, tp: TokenProvider, roles: seq<string>, k: nat)
    requires tp.validate(t) == Some(true) && tp.rolesOf(t) == Some(roles)
    requires k < |roles| && !HasText(roles[k])
    ensures DoFilterInternal(context, Some(Bearer + t), tp) == FilterResult(context, true)
  {
    BearerRoundTrip(t);
  }
}

=== FILE: keys.dfy ===
/**
  Queries over a table keyed by generated ids. Every table of the store
  hands out ids from a counter, so all of its keys lie below that counter
  and a query can scan the ids in ascending order. `FirstKey` is a
  `findBy…` that returns at most one row; `KeysWhere` is one that returns
  the list of matching rows in id order.
*/
module Keys {
  import opened Outcomes

  type Id = nat

  /** Strictly ascending, hence free of duplicates. */
  predicate Increasing(xs: seq<Id>) {
    forall i, j :: 0 <= i < j < |xs| ==> xs[i] < xs[j]
  }

  /** The smallest key in [lo, hi) whose row satisfies `p`, if any. */
  function FirstKey<T>(m: map<Id, T>, p: T -> bool, lo: nat, hi: nat): (r: Option<Id>)
    ensures r.Some? ==> lo <= r.value < hi && r.value in m && p(m[r.value])
    ensures r.Some? ==> forall k :: lo <= k < r.value && k in m ==> !p(m[k])
    ensures r.None? <==> forall k :: lo <= k < hi && k in m ==> !p(m[k])
    decreases hi - lo
  {
    if lo >= hi then None
    else if lo in m && p(m[lo]) then Some(lo)
    else FirstKey(m, p, lo + 1, hi)
  }

  /** The keys in [lo, hi) whose rows satisfy `p`, in ascending order. */
  function KeysWhere<T>(m: map<Id, T>, p: T -> bool, lo: nat, hi: nat): (r: seq<Id>)
    ensures forall k :: k in r <==> lo <= k < hi && k in m && p(m[k])
    ensures Increasing(r)
    decreases hi - lo
  {
    if lo >= hi then []
    else
      var rest := KeysWhere(m, p, lo + 1, hi);
      if lo in m && p(m[lo]) then
        assert forall i :: 0 <= i < |rest| ==> lo < rest[i] by {
          assert forall i :: 0 <= i < |rest| ==> rest[i] in rest;
        }
        [lo] + rest
      else rest
  }

  /** The head of an ascending list is its least element. */
  lemma HeadIsLeast(xs: seq<Id>, x: Id)
    requires Increasing(xs) && x in xs
    ensures xs[0] <= x
  {
  }

  lemma HeadIsMember(xs: seq<Id>)
    ensures |xs| > 0 ==> xs[0] in xs
  {
  }

  /** A list with no members is empty. */
  lemma NoMembersEmpty(xs: seq<Id>)
    ensures (forall x :: x !in xs) ==> xs == []
  {
    HeadIsMember(xs);
  }

  /**
    An ascending list is determined by its elements: two ascending lists
    with the same members are the same list. This is what lets the model
    describe a query result by the set of rows it must contain.
  */
  lemma {:induction false} IncreasingUnique(a: seq<Id>, b: seq<Id>)
    requires Increasing(a) && Increasing(b)
    requires forall x :: x in a <==> x in b
    ensures a == b
  {
    HeadIsMember(b);
    if |a| == 0 {
    } else {
      assert |b| > 0 by { assert a[0] in b; }
      HeadIsLeast(a, b[0]);
      HeadIsLeast(b, a[0]);
      forall x
        ensures x in a[1..] <==> x in b[1..]
      {
        if x in a[1..] {
          var i :| 1 <= i < |a| && a[i] == x;
          assert x > a[0];
          assert x in b;
          var j :| 0 <= j < |b| && b[j] == x;
          assert j != 0;
          assert b[j] == b[1..][j - 1];
        }
        if x in b[1..] {
          var i :| 1 <= i < |b| && b[i] == x;
          assert x > b[0];
          assert x in a;
          var j :| 0 <= j < |a| && a[j] == x;
          assert j != 0;
          assert a[j] == a[1..][j - 1];
        }
      }
      IncreasingUnique(a[1..], b[1..]);
      assert a == [a[0]] + a[1..];
      assert b == [b[0]] + b[1..];
    }
  }

  /** A list with the members of a `KeysWhere` query, in ascending order, is its result. */
  lemma KeysWhereIs<T>(m: map<Id, T>, p: T -> bool, hi: nat, xs: seq<Id>)
    requires Increasing(xs)
    requires forall k :: k in xs <==> k < hi && k in m && p(m[k])
    ensures KeysWhere(m, p, 0, hi) == xs
  {
    IncreasingUnique(KeysWhere(m, p, 0, hi), xs);
  }

  /** Sorted so that `key` never increases from one element to the next. */
  predicate DescendingBy(xs: seq<Id>, key: Id -> int) {
    forall a, b :: 0 <= a < b < |xs| ==> key(xs[a]) >= key(xs[b])
  }

  /** In a list sorted by descending key, no element's key exceeds the head's. */
  lemma HeadBoundsAll(xs: seq<Id>, key: Id -> int)
    requires DescendingBy(xs, key) && |xs| > 0
    ensures forall y :: y in xs ==> key(y) <= key(xs[0])
  {
    forall y | y in xs
      ensures key(y) <= key(xs[0])
    {
      var j :| 0 <= j < |xs| && xs[j] == y;
      if j > 0 {
        assert key(xs[0]) >= key(xs[j]);
      }
    }
  }

  /** A head whose key bounds a descending tail keeps the list descending. */
  lemma PrependDescending(h: Id, rest: seq<Id>, key: Id -> int)
    requires DescendingBy(rest, key)
    requires forall y :: y in rest ==> key(y) <= key(h)
    ensures DescendingBy([h] + rest, key)
  {
    var r := [h] + rest;
    forall a, b | 0 <= a < b < |r|
      ensures key(r[a]) >= key(r[b])
    {
      if a == 0 {
        assert r[b] == rest[b - 1];
        assert rest[b - 1] in rest;
      } else {
        assert r[a] == rest[a - 1] && r[b] == rest[b - 1];
      }
    }
  }

  /** Inserts `x` before the first element whose key is smaller than its own. */
  function InsertDescending(x: Id, xs: seq<Id>, key: Id -> int): (r: seq<Id>)
    ensures multiset(r) == multiset(xs) + multiset{x}
    ensures forall y :: y in r ==> y == x || y in xs
    ensures DescendingBy(xs, key) ==> DescendingBy(r, key)
  {
    if |xs| == 0 then [x]
    else if key(x) >= key(xs[0]) then
      assert DescendingBy(xs, key) ==> DescendingBy([x] + xs, key) by {
        if DescendingBy(xs, key) {
          HeadBoundsAll(xs, key);
          PrependDescending(x, xs, key);
        }
      }
      [x] + xs
    else
      var rest := InsertDescending(x, xs[1..], key);
      assert xs == [xs[0]] + xs[1..];
      assert DescendingBy(xs, key) ==> DescendingBy([xs[0]] + rest, key) by {
        if DescendingBy(xs, key) {
          HeadBoundsAll(xs, key);
          assert DescendingBy(xs[1..], key);
          PrependDescending(xs[0], rest, key);
        }
      }
      [xs[0]] + rest
  }

  /** Insertion sort, newest (largest key) first. */
  function SortDescending(xs: seq<Id>, key: Id -> int): (r: seq<Id>)
    ensures multiset(r) == multiset(xs)
    ensures DescendingBy(r, key)
  {
    if |xs| == 0 then []
    else
      assert xs == [xs[0]] + xs[1..];
      InsertDescending(xs[0], SortDescending(xs[1..], key), key)
  }

  /** An ascending list holds each element once. */
  lemma IncreasingCountsOnce(xs: seq<Id>, x: Id)
    requires Increasing(xs) && x in xs
    ensures multiset(xs)[x] == 1
  {
    var i :| 0 <= i < |xs| && xs[i] == x;
    assert xs == xs[..i] + [x] + xs[i + 1..];
    assert x !in xs[..i] by {
      forall k | 0 <= k < i ensures xs[..i][k] != x { assert xs[k] < xs[i]; }
    }
    assert x !in xs[i + 1..] by {
      assert forall j :: i < j < |xs| ==> xs[i] < xs[j];
    }
  }

  /** A list in which every element occurs at most once has no repeated positions. */
  lemma OnceMeansDistinct(xs: seq<Id>)
    requires forall x :: x in xs ==> multiset(xs)[x] == 1
    ensures forall a, b :: 0 <= a < b < |xs| ==> xs[a] != xs[b]
  {
    forall a, b | 0 <= a < b < |xs|
      ensures xs[a] != xs[b]
    {
      assert xs == xs[..b] + xs[b..];
      assert xs[a] == xs[..b][a];
      assert xs[b] == xs[b..][0];
      assert multiset(xs)[xs[b]] == multiset(xs[..b])[xs[b]] + multiset(xs[b..])[xs[b]];
    }
  }

  /** An ascending list has as many elements as the set of its members. */
  lemma {:induction false} IncreasingCard(xs: seq<Id>, members: set<Id>)
    requires Increasing(xs)
    requires forall x :: x in xs <==> x in members
    ensures |xs| == |members|
  {
    if |xs| == 0 {
      assert forall x :: x !in members;
    } else {
      var rest := members - {xs[0]};
      assert xs[0] !in xs[1..] by {
        forall j | 0 <= j < |xs[1..]| ensures xs[1..][j] != xs[0] { assert xs[0] < xs[j + 1]; }
      }
      forall x ensures x in xs[1..] <==> x in rest {
        if x in xs && x != xs[0] {
          var j :| 0 <= j < |xs| && xs[j] == x;
          assert xs[1..][j - 1] == x;
        }
        assert x in xs[1..] ==> x in xs;
      }
      IncreasingCard(xs[1..], rest);
    }
  }
}

=== FILE: money.dfy ===
/**
  Line items and their money arithmetic. Prices are Java `BigDecimal`
  amounts in the source; here they are exact integers (cents), so the
  sums below are exact as BigDecimal addition is.
*/
module Money {
  import opened Keys

  /** A (product, quantity, unit price) triple: the content of a cart or order line. */
  datatype Line = Line(product: Id, quantity: int, unitPrice: int)

  /** What a line costs: its unit price times its quantity. */
  function Subtotal(l: Line): int {
    l.unitPrice * l.quantity
  }

  /** Sum of the subtotals of `lines`, accumulated front to back. */
  function Total(lines: seq<Line>): int {
    if |lines| == 0 then 0 else Total(lines[..|lines| - 1]) + Subtotal(lines[|lines| - 1])
  }

  /**
    One line of a cart or order response: the stored line, the product's
    display data read at response time, and the subtotal computed then.
  */
  datatype LineView = LineView(
    id: Id,
    productId: Id,
    productName: string,
    productImage: string,
    quantity: int,
    unitPrice: int,
    subtotal: int)

  /** Sum of the subtotals shown in a response (the stream reduce from zero). */
  function SumSubtotals(views: seq<LineView>): int {
    if |views| == 0 then 0 else SumSubtotals(views[..|views| - 1]) + views[|views| - 1].subtotal
  }

  /** The stored content a response line was built from. */
  function ContentOf(v: LineView): Line {
    Line(v.productId, v.quantity, v.unitPrice)
  }

  /** Each view line shows its stored line and that line's subtotal. */
  predicate Shows(views: seq<LineView>, lines: seq<Line>) {
    && |views| == |lines|
    && forall k :: 0 <= k < |views| ==>
         ContentOf(views[k]) == lines[k] && views[k].subtotal == Subtotal(lines[k])
  }

  /** The total is additive over concatenation. */
  lemma {:induction false} TotalAppend(a: seq<Line>, b: seq<Line>)
    ensures Total(a + b) == Total(a) + Total(b)
    decreases |b|
  {
    if |b| == 0 {
      assert a + b == a;
    } else {
      var b' := b[..|b| - 1];
      assert (a + b)[..|a + b| - 1] == a + b';
      TotalAppend(a, b');
    }
  }

  /**
    A response whose lines show `lines` has a subtotal sum equal to the
    total of `lines`: the sum in the response never drifts from the store.
  */
  lemma {:induction false} SumOfShownLines(views: seq<LineView>, lines: seq<Line>)
    requires Shows(views, lines)
    ensures SumSubtotals(views) == Total(lines)
    decreases |views|
  {
    if |views| > 0 {
      var n := |views| - 1;
      assert Shows(views[..n], lines[..n]);
      SumOfShownLines(views[..n], lines[..n]);
    }
  }

  /** A single line's total is its subtotal. */
  lemma TotalOfOne(l: Line)
    ensures Total([l]) == Subtotal(l)
  {
    assert [l][..0] == [];
  }
}

=== FILE: order_controller.dfy ===
/**
  `PedidoController`: the order endpoints. Each one first passes its
  role gate (the `@PreAuthorize` expression, evaluated on the principal the
  JWT filter installed; a failed gate is a 403), then maps the principal's
  name to a user by email, and calls the order service.

  Two checks look at different role sources: the gates read the token's
  authorities, while the owner-or-admin check of a single order reads the
  roles stored with the user.
*/
module OrderController {
  import opened Outcomes
  import opened Keys
  import opened Store
  import opened OrderService
  import opened JwtFilter

  // ---------------------------------------------------------------------
  // Status names
  // ---------------------------------------------------------------------

  /** The constant name of each status, as `valueOf` matches it. */
  function StatusName(st: Status): string {
    match st
    case PENDENTE => "PENDENTE"
    case CANCELADO => "CANCELADO"
    case FINALIZADO => "FINALIZADO"
  }

  /** `Character.toUpperCase` on ASCII letters; every other character is kept. */
  function UpperChar(ch: char): char {
    if 'a' <= ch <= 'z' then (ch as int - 'a' as int + 'A' as int) as char else ch
  }

  /**
    `String.toUpperCase`, character by character: a lower-case ASCII
    letter becomes its capital, 32 code points lower, and every other
    character is kept, so no lower-case ASCII letter is left.
  */
  function ToUpper(x: string): (r: string)
    ensures |r| == |x|
    ensures forall k :: 0 <= k < |x| ==>
      if 'a' <= x[k] <= 'z' then r[k] as int == x[k] as int - 32 && 'A' <= r[k] <= 'Z' else r[k] == x[k]
    ensures forall k :: 0 <= k < |r| ==> !('a' <= r[k] <= 'z')
  {
    seq(|x|, k requires 0 <= k < |x| => UpperChar(x[k]))
  }

  /** Upper-casing twice is upper-casing once. */
  lemma ToUpperIdempotent(x: string)
    ensures ToUpper(ToUpper(x)) == ToUpper(x)
  {
    var u := ToUpper(x);
    assert forall k :: 0 <= k < |u| ==> ToUpper(u)[k] == u[k];
  }

  /**
    `StatusPedido.valueOf(x.toUpperCase())`: the status whose name is the
    upper-cased string; `None` is the IllegalArgumentException.
  */
  function ParseStatus(x: string): (r: Option<Status>)
    ensures forall st :: r == Some(st) <==> ToUpper(x) == StatusName(st)
  {
    var u := ToUpper(x);
    if u == StatusName(PENDENTE) then Some(PENDENTE)
    else if u == StatusName(CANCELADO) then Some(CANCELADO)
    else if u == StatusName(FINALIZADO) then Some(FINALIZADO)
    else None
  }

  /** Each name parses to its status, and no two statuses share a name. */
  lemma StatusNamesRoundTrip(st: Status)
    ensures ParseStatus(StatusName(st)) == Some(st)
    ensures forall other :: StatusName(other) == StatusName(st) ==> other == st
  {
    var n := StatusName(st);
    assert ToUpper(n) == n by {
      forall k | 0 <= k < |n| ensures UpperChar(n[k]) == n[k] {}
    }
  }

  /** Parsing ignores case: strings equal up to the case of ASCII letters parse alike. */
  lemma ParseIgnoresCase(x: string, y: string)
    requires ToUpper(x) == ToUpper(y)
    ensures ParseStatus(x) == ParseStatus(y)
  {
  }

  /** A lower-case spelling of a name parses too. */
  lemma LowerCaseParses(x: string, st: Status)
    requires |x| == |StatusName(st)|
    requires forall k :: 0 <= k < |x| ==> UpperChar(x[k]) == StatusName(st)[k]
    ensures ParseStatus(x) == Some(st)
  {
    StatusNamesRoundTrip(st);
    assert ToUpper(x) == StatusName(st);
  }

  // ---------------------------------------------------------------------
  // The endpoints
  // ---------------------------------------------------------------------

  /** `findByEmail(userDetails.getUsername())`, which throws when nobody has that email. */
  function LoggedUser(s: Store, p: Principal): (r: Result<Id>)
    requires Valid(s)
    ensures r.Ok? <==> exists u :: u in s.users && s.users[u].email == p.username
    ensures r.Ok? ==> r.value in s.users && s.users[r.value].email == p.username
    ensures r.Err? ==> r.error == UserNotFound
  {
    match UserByEmail(s, p.username)
    case None =>
      forall u | u in s.users ensures s.users[u].email != p.username {
        UserByEmailIs(s, p.username, u);
      }
      Err(UserNotFound)
    case Some(u) =>
      UserByEmailIs(s, p.username, u);
      Ok(u)
  }

  /** `GET /api/pedidos`: every order, for ADMIN only. */
  function GetAllPedidos(s: Store, p: Principal): (r: Response<seq<OrderView>>)
    requires Valid(s)
    ensures r.Forbidden403? <==> !HasRole(p, "ADMIN")
    ensures HasRole(p, "ADMIN") ==> r == Ok200(GetAll(s))
  {
    if !HasRole(p, "ADMIN") then Forbidden403 else Ok200(GetAll(s))
  }

  /** `POST /api/pedidos/finalizar`: checkout of the caller's cart, for CLIENTE only. */
  function FinalizarPedido(s: Store, p: Principal, now: Time): (r: (Store, Response<OrderView>))
    requires Valid(s)
    ensures Valid(r.0)
    ensures !r.1.Ok200? ==> r.0 == s
    ensures r.1.Forbidden403? <==> !HasRole(p, "CLIENTE")
    ensures r.1.Ok200? ==>
      exists u :: LoggedUser(s, p) == Ok(u) && Finalize(s, u, now) == Ok((r.0, r.1.body))
  {
    if !HasRole(p, "CLIENTE") then (s, Forbidden403)
    else
      match LoggedUser(s, p)
      case Err(e) => (s, Thrown(e))
      case Ok(u) =>
        match Finalize(s, u, now)
        case Err(e) => (s, Thrown(e))
        case Ok((s', v)) => (s', Ok200(v))
  }

  /**
    Past the CLIENTE gate, checkout answers 200 exactly when it succeeds;
    an unknown caller and every checkout failure are thrown, writing nothing.
  */
  lemma FinalizarPedidoOutcomes(s: Store, p: Principal, now: Time)
    requires Valid(s) && HasRole(p, "CLIENTE")
    ensures LoggedUser(s, p).Err? ==> FinalizarPedido(s, p, now) == (s, Thrown(UserNotFound))
    ensures LoggedUser(s, p).Ok? ==>
      var u := LoggedUser(s, p).value;
      && (FinalizarPedido(s, p, now).1.Ok200? <==> Finalize(s, u, now).Ok?)
      && (Finalize(s, u, now).Ok? ==>
            FinalizarPedido(s, p, now) == (Finalize(s, u, now).value.0, Ok200(Finalize(s, u, now).value.1)))
      && (Finalize(s, u, now).Err? ==> FinalizarPedido(s, p, now) == (s, Thrown(Finalize(s, u, now).error)))
  {
  }

  /** `GET /api/pedidos/meus`: the caller's own orders, newest first, for CLIENTE or ADMIN. */
  function GetMeusPedidos(s: Store, p: Principal): (r: Response<seq<OrderView>>)
    requires Valid(s)
    ensures r.Forbidden403? <==> !HasAnyRole(p, "CLIENTE", "ADMIN")
    ensures r.Ok200? ==> exists u :: LoggedUser(s, p) == Ok(u) && r.body == GetByUser(s, u)
    ensures HasAnyRole(p, "CLIENTE", "ADMIN") && LoggedUser(s, p).Ok? ==>
      r == Ok200(GetByUser(s, LoggedUser(s, p).value))
    ensures HasAnyRole(p, "CLIENTE", "ADMIN") && LoggedUser(s, p).Err? ==> r == Thrown(UserNotFound)
  {
    if !HasAnyRole(p, "CLIENTE", "ADMIN") then Forbidden403
    else
      match LoggedUser(s, p)
      case Err(e) => Thrown(e)
      case Ok(u) => Ok200(GetByUser(s, u))
  }

  /**
    `GET /api/pedidos/{id}`. The order is looked up first; only then the
    caller, and a caller whose stored roles lack ADMIN sees only their own
    orders.
  */
  function GetPedidoById(s: Store, p: Principal, o: Id): (r: Response<OrderView>)
    requires Valid(s)
    ensures !HasAnyRole(p, "CLIENTE", "ADMIN") ==> r == Forbidden403
    ensures HasAnyRole(p, "CLIENTE", "ADMIN") && o !in s.orders ==> r == Thrown(OrderNotFound)
    ensures HasAnyRole(p, "CLIENTE", "ADMIN") && o in s.orders ==>
      if forall u :: u in s.users ==> s.users[u].email != p.username then r == Thrown(UserNotFound)
      else forall u :: u in s.users && s.users[u].email == p.username ==>
        && (r.Forbidden403? <==> ADMIN !in s.users[u].roles && s.orders[o].owner != u)
        && (!r.Forbidden403? ==> r == Ok200(ViewOrder(s, o)))
  {
    if !HasAnyRole(p, "CLIENTE", "ADMIN") then Forbidden403
    else
      match GetById(s, o)
      case None => Thrown(OrderNotFound)
      case Some(v) =>
        match LoggedUser(s, p)
        case Err(e) => Thrown(e)
        case Ok(u) =>
          if ADMIN !in s.users[u].roles && u != v.userId then Forbidden403
          else Ok200(v)
  }

  /**
    `PUT /api/pedidos/admin/{id}/status`, for ADMIN only. An unknown status
    name is a 400 and the service is not called; an unknown order is a 404.
  */
  function UpdatePedidoStatus(s: Store, p: Principal, o: Id, newStatus: string): (r: (Store, Response<OrderView>))
    requires Valid(s)
    ensures Valid(r.0)
  {
    if !HasRole(p, "ADMIN") then (s, Forbidden403)
    else
      match ParseStatus(newStatus)
      case None => (s, BadRequest400)
      case Some(st) =>
        match UpdateStatus(s, o, st)
        case Err(_) => (s, NotFound404)
        case Ok((s', v)) => (s', Ok200(v))
  }

  // ---------------------------------------------------------------------
  // Access and error mapping
  // ---------------------------------------------------------------------

  /** A missing order is reported before the caller is even looked up. */
  lemma GetPedidoByIdMissingFirst(s: Store, p: Principal, o: Id)
    requires Valid(s) && HasAnyRole(p, "CLIENTE", "ADMIN") && o !in s.orders
    ensures GetPedidoById(s, p, o) == Thrown(OrderNotFound)
  {
  }

  /**
    A caller who passes the gate and is a known user gets the order exactly
    when their stored roles include ADMIN or they placed the order;
    otherwise the answer is 403.
  */
  lemma GetPedidoByIdAccess(s: Store, p: Principal, o: Id, u: Id)
    requires Valid(s) && HasAnyRole(p, "CLIENTE", "ADMIN") && o in s.orders
    requires u in s.users && s.users[u].email == p.username
    ensures var r := GetPedidoById(s, p, o);
      && (r.Forbidden403? <==> ADMIN !in s.users[u].roles && s.orders[o].owner != u)
      && (!r.Forbidden403? ==> r == Ok200(ViewOrder(s, o)))
  {
    UserByEmailIs(s, p.username, u);
  }

  /** A caller without either role is refused before anything is read. */
  lemma GetPedidoByIdGate(s: Store, p: Principal, o: Id)
    requires Valid(s) && !HasAnyRole(p, "CLIENTE", "ADMIN")
    ensures GetPedidoById(s, p, o) == Forbidden403
  {
  }

  /**
    The status endpoint's outcomes for an ADMIN: an unrecognised name is a
    400 and changes nothing; a recognised name on a missing order is a 404
    and changes nothing; otherwise that order now has that status.
  */
  lemma UpdatePedidoStatusOutcomes(s: Store, p: Principal, o: Id, newStatus: string)
    requires Valid(s) && HasRole(p, "ADMIN")
    ensures ParseStatus(newStatus).None? ==> UpdatePedidoStatus(s, p, o, newStatus) == (s, BadRequest400)
    ensures ParseStatus(newStatus).Some? && o !in s.orders ==>
      UpdatePedidoStatus(s, p, o, newStatus) == (s, NotFound404)
    ensures ParseStatus(newStatus).Some? && o in s.orders ==>
      var (s', r) := UpdatePedidoStatus(s, p, o, newStatus);
      && r.Ok200? && r.body.status == ParseStatus(newStatus).value
      && s' == s.(orders := s.orders[o := s.orders[o].(status := ParseStatus(newStatus).value)])
  {
  }

  /** Only an ADMIN token may relabel orders; anyone else gets 403 and nothing changes. */
  lemma UpdatePedidoStatusGate(s: Store, p: Principal, o: Id, newStatus: string)
    requires Valid(s) && !HasRole(p, "ADMIN")
    ensures UpdatePedidoStatus(s, p, o, newStatus) == (s, Forbidden403)
  {
  }
}

=== FILE: order_properties.dfy ===
/**
  What the order operations of `PedidoService` do to the store: checkout
  snapshots the cart into a new order and empties it, a status update
  relabels one order and nothing else, and the listings return exactly
  the orders they promise in the order they promise.
*/
module OrderProperties {
  import opened Outcomes
  import opened Keys
  import opened Money
  import opened Store
  import opened CartService
  import opened OrderService

  // ---------------------------------------------------------------------
  // finalizarPedido
  // ---------------------------------------------------------------------

  /** Checkout fails for an unknown user, a user without a cart, and an empty cart, in that order. */
  lemma FinalizeFailures(s: Store, u: Id, now: Time)
    requires Valid(s)
    ensures u !in s.users ==> Finalize(s, u, now) == Err(UserNotFound)
    ensures u in s.users && !HasCart(s, u) ==> Finalize(s, u, now) == Err(CartNotFound)
    ensures forall c :: c in s.carts && s.carts[c].owner == u && u in s.users && LinesOf(s, c) == [] ==>
      Finalize(s, u, now) == Err(EmptyCart)
    ensures Finalize(s, u, now).Err? <==>
      u !in s.users || !HasCart(s, u) || exists c :: c in s.carts && s.carts[c].owner == u && LinesOf(s, c) == []
  {
    CartOfNone(s, u);
    forall c | c in s.carts && s.carts[c].owner == u
      ensures CartOf(s, u) == Some(c)
    {
      CartOfIs(s, u, c);
    }
  }

  /** The parts of checkout's result that the lemmas below speak about. */
  ghost predicate PlacedFrom(s: Store, s': Store, u: Id, c: Id, now: Time) {
    && Valid(s)
    && c in s.carts
    && s.nextOrder !in s.orders
    && s.nextOrder in s'.orders
    && s'.orders == s.orders[s.nextOrder := s'.orders[s.nextOrder]]
    && s'.nextOrder == s.nextOrder + 1
    && s'.users == s.users && s'.products == s.products && s'.carts == s.carts
    && s'.nextItem == s.nextItem
    && var o := s'.orders[s.nextOrder];
       && o.owner == u && o.date == now && o.status == PENDENTE
       && |o.items| == |LinesOf(s, c)|
       && (forall k :: 0 <= k < |o.items| ==> o.items[k].line == s.items[LinesOf(s, c)[k]].line)
       && o.total == Total(CartLines(s, c))
  }

  /**
    Checking out a non-empty cart stores one new order under a fresh id:
    owned by the caller, dated now, PENDENTE, with one line per cart line in
    the cart's order carrying the same product, quantity and unit price, and
    a total equal to the sum of those lines' subtotals. The cart itself
    stays but loses all its lines; other carts' lines, the users, products
    and carts are untouched. The response shows the stored order.
  */
  lemma FinalizeCreatesOrder(s: Store, u: Id, now: Time, c: Id)
    requires Valid(s) && c in s.carts && s.carts[c].owner == u && |LinesOf(s, c)| > 0
    ensures Finalize(s, u, now).Ok?
    ensures var (s', v) := Finalize(s, u, now).value;
      && PlacedFrom(s, s', u, c, now)
      && LinesOf(s', c) == []
      && (forall j :: j in s'.items <==> j in s.items && s.items[j].cart != c)
      && (forall j :: j in s'.items ==> s'.items[j] == s.items[j])
      && v.id == s.nextOrder && v.userId == u && v.status == PENDENTE
      && v.total == Total(CartLines(s, c))
      && Shows(v.lines, CartLines(s, c))
  {
    CartOfIs(s, u, c);
    assert CartFor(s, u) == Ok(c);
    var s' := PlaceOrder(s, u, c, now);
    assert Finalize(s, u, now) == Ok((s', ViewOrder(s', s.nextOrder)));
    PlaceOrderStores(s, u, c, now);
    PlaceOrderEmpties(s, u, c, now);
  }

  /** The order that checkout stores. */
  lemma PlaceOrderStores(s: Store, u: Id, c: Id, now: Time)
    requires Valid(s) && c in s.carts && s.carts[c].owner == u
    ensures PlacedFrom(s, PlaceOrder(s, u, c, now), u, c, now)
    ensures PlaceOrder(s, u, c, now).orders[s.nextOrder].Lines() == CartLines(s, c)
  {
    var o := NewOrder(s, u, c, now);
    assert forall k :: 0 <= k < |o.items| ==> o.items[k].line == s.items[LinesOf(s, c)[k]].line;
  }

  /** Checkout deletes exactly the lines of the cart it orders. */
  lemma PlaceOrderEmpties(s: Store, u: Id, c: Id, now: Time)
    requires Valid(s) && c in s.carts && s.carts[c].owner == u
    ensures var s' := PlaceOrder(s, u, c, now);
      && LinesOf(s', c) == []
      && (forall j :: j in s'.items <==> j in s.items && s.items[j].cart != c)
      && (forall j :: j in s'.items ==> s'.items[j] == s.items[j])
  {
    var s' := PlaceOrder(s, u, c, now);
    LinesOfMembers(s', c);
    NoMembersEmpty(LinesOf(s', c));
  }

  /** Right after a checkout the cart is empty, so checking out again fails. */
  lemma FinalizeTwiceFails(s: Store, u: Id, now: Time, later: Time, c: Id)
    requires Valid(s) && c in s.carts && s.carts[c].owner == u && |LinesOf(s, c)| > 0
    ensures Finalize(s, u, now).Ok?
    ensures Finalize(Finalize(s, u, now).value.0, u, later) == Err(EmptyCart)
  {
    FinalizeCreatesOrder(s, u, now, c);
    var s' := Finalize(s, u, now).value.0;
    CartOfIs(s', u, c);
  }

  /**
    The order lines checkout makes have increasing ids, none of them
    already held by a line of a stored order.
  */
  lemma SnapshotIdsFresh(s: Store, c: Id)
    requires Valid(s)
    ensures var items := Snapshot(s, c);
      && (forall a, b :: 0 <= a < b < |items| ==> items[a].id < items[b].id)
      && (forall k, o, j :: 0 <= k < |items| && o in s.orders && 0 <= j < |s.orders[o].items| ==>
            items[k].id != s.orders[o].items[j].id)
  {
  }

  /** The loop the source runs computes the same lines and total as the snapshot checkout stores. */
  method CheckoutLoopAgrees(s: Store, c: Id) returns (items: seq<OrderItem>, total: int)
    ensures items == Snapshot(s, c)
    ensures total == Total(CartLines(s, c))
  {
    var lines := CartLines(s, c);
    items, total := CopyLines(lines, s.nextOrderItem);
    var snap := Snapshot(s, c);
    assert forall k :: 0 <= k < |items| ==> items[k] == snap[k];
  }

  // ---------------------------------------------------------------------
  // updatePedidoStatus
  // ---------------------------------------------------------------------

  /** Relabelling a missing order fails. */
  lemma UpdateStatusMissing(s: Store, o: Id, st: Status)
    requires Valid(s) && o !in s.orders
    ensures UpdateStatus(s, o, st) == Err(OrderNotFound)
  {
  }

  /**
    Any status may replace any other, and only that field of that order
    changes: its lines, total, date and owner, every other order and every
    other table stay as they were.
  */
  lemma UpdateStatusSets(s: Store, o: Id, st: Status)
    requires Valid(s) && o in s.orders
    ensures UpdateStatus(s, o, st).Ok?
    ensures var (s', v) := UpdateStatus(s, o, st).value;
      && s' == s.(orders := s'.orders)
      && s'.orders.Keys == s.orders.Keys
      && s'.orders[o].status == st
      && s'.orders[o] == s.orders[o].(status := st)
      && (forall q :: q in s.orders && q != o ==> s'.orders[q] == s.orders[q])
      && v.id == o && v.status == st && v.total == s.orders[o].total
  {
    var s' := s.(orders := s.orders[o := s.orders[o].(status := st)]);
    StatusFrame(s.orders, o, st);
    assert UpdateStatus(s, o, st).value.0 == s';
  }

  /** Relabelling one order of a table leaves the keys and every other order as they were. */
  lemma StatusFrame(m: map<Id, Order>, o: Id, st: Status)
    requires o in m
    ensures m[o := m[o].(status := st)].Keys == m.Keys
    ensures forall q :: q in m && q != o ==> m[o := m[o].(status := st)][q] == m[q]
  {
  }

  /** Setting the status an order already has writes nothing. */
  lemma UpdateStatusIdempotent(s: Store, o: Id)
    requires Valid(s) && o in s.orders
    ensures UpdateStatus(s, o, s.orders[o].status).Ok?
    ensures UpdateStatus(s, o, s.orders[o].status).value.0 == s
  {
    var st := s.orders[o].status;
    assert s.orders[o].(status := st) == s.orders[o];
    assert s.orders[o := s.orders[o]] == s.orders;
    assert UpdateStatus(s, o, st).value.0 == s.(orders := s.orders[o := s.orders[o].(status := st)]);
  }

  // ---------------------------------------------------------------------
  // Reading orders
  // ---------------------------------------------------------------------

  /** An order's response lines add up to the total stored with it. */
  lemma OrderViewTotals(s: Store, o: Id)
    requires Valid(s)
    ensures GetById(s, o).Some? <==> o in s.orders
    ensures GetById(s, o).Some? ==>
      && GetById(s, o).value.id == o
      && GetById(s, o).value.total == Total(s.orders[o].Lines())
      && SumSubtotals(GetById(s, o).value.lines) == GetById(s, o).value.total
  {
  }

  /** The newest-first ids are exactly the user's orders, each once, dates not increasing. */
  lemma NewestOrdersOfIs(s: Store, u: Id)
    requires Valid(s)
    ensures var ids := NewestOrdersOf(s, u);
      && (forall o :: o in ids <==> o in s.orders && s.orders[o].owner == u)
      && (forall a, b :: 0 <= a < b < |ids| ==> ids[a] != ids[b])
  {
    NewestOrdersMembers(s, u);
    NewestOrdersDistinct(s, u);
  }

  /** Sorting keeps exactly the user's orders. */
  lemma NewestOrdersMembers(s: Store, u: Id)
    requires Valid(s)
    ensures forall o :: o in NewestOrdersOf(s, u) <==> o in s.orders && s.orders[o].owner == u
  {
    var ids := OrdersOf(s, u);
    var sorted := NewestOrdersOf(s, u);
    forall o
      ensures o in sorted <==> o in s.orders && s.orders[o].owner == u
    {
      assert o in sorted <==> o in multiset(sorted);
      assert o in ids <==> o in multiset(ids);
      if o in s.orders {
        assert o < s.nextOrder;
        assert PlacedBy(u, s.orders[o]) <==> s.orders[o].owner == u;
      }
    }
  }

  /** Sorting an ascending id list yields each id once. */
  lemma NewestOrdersDistinct(s: Store, u: Id)
    ensures forall a, b :: 0 <= a < b < |NewestOrdersOf(s, u)| ==> NewestOrdersOf(s, u)[a] != NewestOrdersOf(s, u)[b]
  {
    var ids := OrdersOf(s, u);
    var sorted := NewestOrdersOf(s, u);
    forall x | x in sorted
      ensures multiset(sorted)[x] == 1
    {
      assert x in multiset(ids);
      IncreasingCountsOnce(ids, x);
    }
    OnceMeansDistinct(sorted);
  }

  /**
    A user's order list holds exactly that user's orders, each once, with
    the newest first.
  */
  lemma GetByUserLists(s: Store, u: Id)
    requires Valid(s)
    ensures var vs := GetByUser(s, u);
      && (forall k :: 0 <= k < |vs| ==> vs[k].userId == u && vs[k].id in s.orders)
      && (forall o :: o in s.orders && s.orders[o].owner == u ==> exists k :: 0 <= k < |vs| && vs[k].id == o)
      && (forall a, b :: 0 <= a < b < |vs| ==> vs[a].id != vs[b].id)
      && (forall a, b :: 0 <= a < b < |vs| ==> vs[a].date >= vs[b].date)
  {
    var sorted := NewestOrdersOf(s, u);
    var vs := GetByUser(s, u);
    NewestOrdersOfIs(s, u);
    GetByUserDates(s, u);
    forall o | o in s.orders && s.orders[o].owner == u
      ensures exists k :: 0 <= k < |vs| && vs[k].id == o
    {
      var k :| 0 <= k < |sorted| && sorted[k] == o;
      assert vs[k].id == o;
    }
  }

  /** The responses of a user's order list are dated newest first. */
  lemma GetByUserDates(s: Store, u: Id)
    requires Valid(s)
    ensures var vs := GetByUser(s, u);
      forall a, b :: 0 <= a < b < |vs| ==> vs[a].date >= vs[b].date
  {
    var sorted := NewestOrdersOf(s, u);
    var vs := GetByUser(s, u);
    NewestOrdersAreOrders(s, u);
    forall a, b | 0 <= a < b < |vs|
      ensures vs[a].date >= vs[b].date
    {
      assert sorted[a] in sorted && sorted[b] in sorted;
    }
  }

  /** The full list holds every order exactly once, in id order. */
  lemma GetAllLists(s: Store)
    requires Valid(s)
    ensures var vs := GetAll(s);
      && (forall o :: o in s.orders <==> exists k :: 0 <= k < |vs| && vs[k].id == o)
      && (forall a, b :: 0 <= a < b < |vs| ==> vs[a].id < vs[b].id)
  {
    ViewsOfIds(s.orders.Keys, AllOrders(s), GetAll(s));
  }

  /** Responses that carry the ids of an ascending list of `keys`, one for one, list each key once, in order. */
  lemma ViewsOfIds(keys: set<Id>, ids: seq<Id>, vs: seq<OrderView>)
    requires Increasing(ids) && forall o :: o in ids <==> o in keys
    requires |vs| == |ids| && forall k :: 0 <= k < |vs| ==> vs[k].id == ids[k]
    ensures forall o :: o in keys <==> exists k :: 0 <= k < |vs| && vs[k].id == o
    ensures forall a, b :: 0 <= a < b < |vs| ==> vs[a].id < vs[b].id
  {
    forall o | o in keys
      ensures exists k :: 0 <= k < |vs| && vs[k].id == o
    {
      var k :| 0 <= k < |ids| && ids[k] == o;
      assert vs[k].id == o;
    }
  }
}

=== FILE: order_service.dfy ===
/**
  `PedidoService`: turning the caller's cart into an order, and reading
  and re-labelling orders afterwards.

  Checkout copies each cart line verbatim (product, quantity and the unit
  price the line was added at; nothing is re-read from the catalogue),
  stores the sum of the subtotals as the order total, gives the order
  status PENDENTE, and then empties the cart, all in one transaction.
*/
module OrderService {
  import opened Outcomes
  import opened Keys
  import opened Money
  import opened Store
  import opened CartService

  /** `PedidoResponseDTO`. */
  datatype OrderView = OrderView(
    id: Id,
    userId: Id,
    userName: string,
    date: Time,
    status: Status,
    total: int,
    lines: seq<LineView>)

  /** One response line of an order, with the product's current name and image. */
  function ViewOrderItem(s: Store, it: OrderItem): LineView
    requires it.line.product in s.products
  {
    var p := s.products[it.line.product];
    LineView(it.id, it.line.product, p.nome, p.imagem, it.line.quantity, it.line.unitPrice,
             it.line.unitPrice * it.line.quantity)
  }

  /** The response lines of an order's stored lines, in order; they show those lines and add up to their total. */
  function ViewOrderItems(s: Store, items: seq<OrderItem>): (views: seq<LineView>)
    requires forall k :: 0 <= k < |items| ==> items[k].line.product in s.products
    ensures Shows(views, ItemLines(items))
    ensures forall k :: 0 <= k < |views| ==>
      && views[k].id == items[k].id
      && views[k].productName == s.products[items[k].line.product].nome
      && views[k].productImage == s.products[items[k].line.product].imagem
    ensures SumSubtotals(views) == Total(ItemLines(items))
  {
    var views := seq(|items|, k requires 0 <= k < |items| => ViewOrderItem(s, items[k]));
    var lines := ItemLines(items);
    assert forall k :: 0 <= k < |views| ==> ContentOf(views[k]) == lines[k];
    SumOfShownLines(views, lines);
    views
  }

  /**
    `convertToDto`. The total shown is the stored one; the subtotals are
    recomputed, and in a valid store they add up to it.
  */
  function ViewOrder(s: Store, o: Id): (v: OrderView)
    requires Valid(s) && o in s.orders
    ensures v.id == o && v.userId == s.orders[o].owner
    ensures v.userName == s.users[s.orders[o].owner].name
    ensures v.status == s.orders[o].status && v.date == s.orders[o].date
    ensures v.total == s.orders[o].total
    ensures Shows(v.lines, s.orders[o].Lines())
    ensures forall k :: 0 <= k < |v.lines| ==>
      && v.lines[k].id == s.orders[o].items[k].id
      && v.lines[k].productName == s.products[s.orders[o].items[k].line.product].nome
      && v.lines[k].productImage == s.products[s.orders[o].items[k].line.product].imagem
    ensures SumSubtotals(v.lines) == v.total
  {
    var order := s.orders[o];
    var views := ViewOrderItems(s, order.items);
    OrderView(o, order.owner, s.users[order.owner].name, order.date, order.status, order.total, views)
  }

  /** The order lines checkout makes from cart `c`: one per cart line, in order, with ids counted up from the order-line counter. */
  function Snapshot(s: Store, c: Id): (items: seq<OrderItem>)
    ensures |items| == |LinesOf(s, c)|
    ensures forall k :: 0 <= k < |items| ==>
      items[k] == OrderItem(s.nextOrderItem + k, s.items[LinesOf(s, c)[k]].line)
  {
    var ids := LinesOf(s, c);
    seq(|ids|, k requires 0 <= k < |ids| => OrderItem(s.nextOrderItem + k, s.items[ids[k]].line))
  }

  /**
    The checkout loop as the source runs it: walk the cart lines, copy each
    into an order line and add its subtotal to a running total that starts
    at zero.
  */
  method CopyLines(lines: seq<Line>, firstId: Id) returns (items: seq<OrderItem>, total: int)
    ensures |items| == |lines|
    ensures forall k :: 0 <= k < |items| ==> items[k] == OrderItem(firstId + k, lines[k])
    ensures total == Total(lines)
  {
    items := [];
    total := 0;
    var k := 0;
    while k < |lines|
      invariant 0 <= k <= |lines|
      invariant |items| == k
      invariant forall j :: 0 <= j < k ==> items[j] == OrderItem(firstId + j, lines[j])
      invariant total == Total(lines[..k])
    {
      assert lines[..k + 1][..k] == lines[..k];
      total := total + Subtotal(lines[k]);
      items := items + [OrderItem(firstId + k, lines[k])];
      k := k + 1;
    }
    assert lines[..k] == lines;
  }

  /** The order built from cart `c`, before it is stored. */
  function NewOrder(s: Store, u: Id, c: Id, now: Time): (o: Order)
    requires Valid(s)
    ensures o.owner == u && o.date == now && o.status == PENDENTE
    ensures o.items == Snapshot(s, c)
    ensures o.Lines() == CartLines(s, c)
    ensures o.total == Total(o.Lines())
    ensures forall k :: 0 <= k < |o.items| ==> o.items[k].line.product in s.products
  {
    var items := Snapshot(s, c);
    var o := Order(u, now, PENDENTE, Total(CartLines(s, c)), items);
    assert o.Lines() == CartLines(s, c);
    forall k | 0 <= k < |o.items|
      ensures o.items[k].line.product in s.products
    {
      assert LinesOf(s, c)[k] in LinesOf(s, c);
    }
    o
  }

  /**
    Order `o` may be saved in `s`: its owner and products exist, its total
    is the sum of its lines, and its lines take the next order-line ids.
  */
  ghost predicate Fits(s: Store, o: Order) {
    && o.owner in s.users && o.total == Total(o.Lines())
    && (forall k :: 0 <= k < |o.items| ==> o.items[k].line.product in s.products)
    && (forall k :: 0 <= k < |o.items| ==> o.items[k].id == s.nextOrderItem + k)
  }

  /** Saves order `o` under the next order id, its lines under the next order-line ids. */
  function AddOrder(s: Store, o: Order): (s': Store)
    requires Valid(s) && Fits(s, o)
    ensures Valid(s')
    ensures s' == s.(orders := s.orders[s.nextOrder := o], nextOrder := s.nextOrder + 1,
                     nextOrderItem := s.nextOrderItem + |o.items|)
  {
    ValidAfterNewOrder(s, o);
    WithOrder(s, o)
  }

  /** Stores the order made from cart `c` and empties the cart. */
  function PlaceOrder(s: Store, u: Id, c: Id, now: Time): (s': Store)
    requires Valid(s) && c in s.carts && s.carts[c].owner == u
    ensures Valid(s')
    ensures s' == WithoutLinesOf(s, c).(orders := s.orders[s.nextOrder := NewOrder(s, u, c, now)],
                                        nextOrder := s.nextOrder + 1,
                                        nextOrderItem := s.nextOrderItem + |LinesOf(s, c)|)
  {
    OrderFitsEmptiedStore(s, u, c, now);
    AddOrder(WithoutLinesOf(s, c), NewOrder(s, u, c, now))
  }

  /** The order made from cart `c` may be added to the store with that cart's lines deleted. */
  lemma OrderFitsEmptiedStore(s: Store, u: Id, c: Id, now: Time)
    requires Valid(s) && c in s.carts && s.carts[c].owner == u
    ensures Valid(WithoutLinesOf(s, c)) && Fits(WithoutLinesOf(s, c), NewOrder(s, u, c, now))
    ensures var s1 := WithoutLinesOf(s, c);
      s1.orders == s.orders && s1.nextOrder == s.nextOrder && s1.nextOrderItem == s.nextOrderItem
    ensures |NewOrder(s, u, c, now).items| == |LinesOf(s, c)|
  {
  }

  /** `finalizarPedido`. */
  function Finalize(s: Store, u: Id, now: Time): (r: Result<(Store, OrderView)>)
    requires Valid(s)
    ensures r.Ok? ==> Valid(r.value.0)
    ensures r.Err? ==> r.error in {UserNotFound, CartNotFound, EmptyCart}
    ensures r.Ok? ==> var (s', v) := r.value;
      v.id !in s.orders && v.id in s'.orders && v.userId == u && v.status == PENDENTE && v == ViewOrder(s', v.id)
  {
    if u !in s.users then Err(UserNotFound)
    else
      var c :- CartFor(s, u);
      if |LinesOf(s, c)| == 0 then Err(EmptyCart)
      else
        var s' := PlaceOrder(s, u, c, now);
        Ok((s', ViewOrder(s', s.nextOrder)))
  }

  /** `updatePedidoStatus`: any status may replace any other. */
  function UpdateStatus(s: Store, o: Id, st: Status): (r: Result<(Store, OrderView)>)
    requires Valid(s)
    ensures r.Ok? ==> Valid(r.value.0)
    ensures r.Err? <==> o !in s.orders
    ensures r.Err? ==> r.error == OrderNotFound
    ensures r.Ok? ==> var (s', v) := r.value;
      o in s'.orders && s'.orders[o].status == st && v == ViewOrder(s', o)
  {
    if o !in s.orders then Err(OrderNotFound)
    else
      var s' := s.(orders := s.orders[o := s.orders[o].(status := st)]);
      ValidAfterStatus(s, o, st);
      Ok((s', ViewOrder(s', o)))
  }

  /** `getPedidoById`. */
  function GetById(s: Store, o: Id): (r: Option<OrderView>)
    requires Valid(s)
    ensures r.Some? <==> o in s.orders
    ensures r.Some? ==> r.value == ViewOrder(s, o) && r.value.id == o && r.value.userId == s.orders[o].owner
  {
    if o in s.orders then Some(ViewOrder(s, o)) else None
  }

  /** The orders of `u`, newest first: `findByUsuarioIdOrderByDataPedidoDesc`. */
  function NewestOrdersOf(s: Store, u: Id): seq<Id> {
    SortDescending(OrdersOf(s, u), o => if o in s.orders then s.orders[o].date else 0)
  }

  /** Every id in the newest-first list is an order of `u`. */
  lemma NewestOrdersAreOrders(s: Store, u: Id)
    ensures forall o :: o in NewestOrdersOf(s, u) ==> o in s.orders && s.orders[o].owner == u
  {
    forall o | o in NewestOrdersOf(s, u)
      ensures o in s.orders && s.orders[o].owner == u
    {
      assert o in multiset(OrdersOf(s, u));
    }
  }

  /**
    The responses for the orders `ids`, in that order: each shows its own
    order's id, owner, date, status and stored total, with line subtotals
    adding up to that total.
  */
  function ViewOrders(s: Store, ids: seq<Id>): (vs: seq<OrderView>)
    requires Valid(s) && forall o :: o in ids ==> o in s.orders
    ensures |vs| == |ids|
    ensures forall k :: 0 <= k < |vs| ==>
      && vs[k].id == ids[k] && vs[k].userId == s.orders[ids[k]].owner
      && vs[k].date == s.orders[ids[k]].date && vs[k].status == s.orders[ids[k]].status
      && vs[k].total == s.orders[ids[k]].total && SumSubtotals(vs[k].lines) == vs[k].total
  {
    seq(|ids|, k requires 0 <= k < |ids| => ViewOrder(s, ids[k]))
  }

  /** `getPedidosByUserId`. */
  function GetByUser(s: Store, u: Id): (vs: seq<OrderView>)
    requires Valid(s)
    ensures |vs| == |NewestOrdersOf(s, u)|
    ensures forall k :: 0 <= k < |vs| ==> vs[k].id == NewestOrdersOf(s, u)[k]
    ensures forall k :: 0 <= k < |vs| ==> vs[k].userId == u
    ensures forall k :: 0 <= k < |vs| ==> vs[k].id in s.orders && vs[k] == ViewOrder(s, vs[k].id)
  {
    NewestOrdersAreOrders(s, u);
    ViewOrders(s, NewestOrdersOf(s, u))
  }

  /** The ids of all orders, in id order: `findAll`. */
  function AllOrders(s: Store): seq<Id> {
    KeysWhere(s.orders, (o: Order) => true, 0, s.nextOrder)
  }

  /** `getAllPedidos`. */
  function GetAll(s: Store): (vs: seq<OrderView>)
    requires Valid(s)
    ensures |vs| == |AllOrders(s)|
    ensures forall k :: 0 <= k < |vs| ==> vs[k].id == AllOrders(s)[k]
    ensures forall k :: 0 <= k < |vs| ==> vs[k].id in s.orders && vs[k] == ViewOrder(s, vs[k].id)
  {
    ViewOrders(s, AllOrders(s))
  }
}

=== FILE: outcomes.dfy ===
/**
  Success and failure values shared by every service and controller of the
  menu backend. The services signal failure by throwing a RuntimeException
  with a distinct message; here each message is a constructor of `Error`,
  and a thrown exception is an `Err` that carries no new store (the
  surrounding transaction rolls back, so nothing is written).
*/
module Outcomes {

  /** A value that may be absent (Java's `null` or an empty `Optional`). */
  datatype Option<+T> = None | Some(value: T)

  /** The reasons the services give when they throw. */
  datatype Error =
    | UserNotFound        // "Usuário não encontrado"
    | CartNotFound        // "Carrinho não encontrado para o usuário"
    | ProductNotFound     // "Produto não encontrado com ID"
    | ProductUnavailable  // "Produto não disponível no momento"
    | ItemNotFound        // "Item do carrinho não encontrado com ID"
    | ItemNotInCart       // "Item do carrinho não pertence ao carrinho do usuário."
    | EmptyCart           // "O carrinho está vazio."
    | OrderNotFound       // "Pedido não encontrado"
    | NullField           // a null Boolean unboxed, or a null written to a NOT NULL column
    | ProductReferenced   // deleting a product a cart or order line still references

  /** Outcome of a service call: a value, or the exception it threw. */
  datatype Result<+T> = Ok(value: T) | Err(error: Error) {
    predicate IsFailure() { Err? }

    function PropagateFailure<U>(): Result<U>
      requires Err?
    {
      Err(error)
    }

    function Extract(): T
      requires Ok?
    {
      value
    }
  }

  /**
    Outcome of a controller endpoint, as the HTTP layer sees it. `Thrown`
    is an exception the controller does not catch (the framework answers
    it with a server error).
  */
  datatype Response<+T> =
    | Ok200(body: T)
    | Created201(body: T)
    | NoContent204
    | BadRequest400
    | Forbidden403
    | NotFound404
    | Thrown(error: Error)
}

=== FILE: product_controller.dfy ===
/**
  `ProdutoController`: the catalogue endpoints. Unlike the service, they
  work on the repository directly: `save` stores the fields exactly as
  sent (no availability default), and `update` insists that the body's id
  matches the path. Writes need the ADMIN role; reads are open.
*/
module ProductController {
  import opened Outcomes
  import opened Keys
  import opened Store
  import opened ProductService
  import opened JwtFilter

  /** `GET /api/produtos`: every product. */
  function FindAll(s: Store): (r: Response<seq<ProductData>>)
    requires Valid(s)
    ensures r.Ok200? && |r.body| == |s.products|
    ensures forall q :: q in s.products <==> exists k :: 0 <= k < |r.body| && r.body[k].id == Some(q)
    ensures forall k :: 0 <= k < |r.body| ==>
      r.body[k].id.Some? && r.body[k].id.value in s.products && FieldsOf(r.body[k]) == s.products[r.body[k].id.value]
  {
    Ok200(GetAllProdutos(s))
  }

  /** `GET /api/produtos/{id}`. */
  function FindById(s: Store, id: Id): (r: Response<ProductData>)
    ensures r.NotFound404? <==> id !in s.products
    ensures r.Ok200? ==> id in s.products && r.body == ToData(id, s.products[id])
    ensures id in s.products ==> r == Ok200(ToData(id, s.products[id]))
  {
    if id in s.products then Ok200(ToData(id, s.products[id])) else NotFound404
  }

  /** `POST /api/produtos`: a body that carries an id is refused. */
  function Save(s: Store, p: Principal, d: ProductData): (r: (Store, Response<ProductData>))
    requires Valid(s)
    ensures Valid(r.0)
    ensures !r.1.Created201? ==> r.0 == s
  {
    if !HasRole(p, "ADMIN") then (s, Forbidden403)
    else if d.id.Some? then (s, BadRequest400)
    else
      var (s', v) := Insert(s, FieldsOf(d));
      (s', Created201(v))
  }

  /** `PUT /api/produtos/{id}`: the body's id must be present and equal the path's. */
  function Update(s: Store, p: Principal, id: Id, d: ProductData): (r: (Store, Response<ProductData>))
    requires Valid(s)
    ensures Valid(r.0)
    ensures !r.1.Ok200? ==> r.0 == s
  {
    if !HasRole(p, "ADMIN") then (s, Forbidden403)
    else if d.id != Some(id) then (s, BadRequest400)
    else if id !in s.products then (s, NotFound404)
    else (Overwrite(s, id, FieldsOf(d)), Ok200(ToData(id, FieldsOf(d))))
  }

  /**
    `DELETE /api/produtos/{id}`: `deleteById` ignores a missing id, so that
    case answers 204 as well; a product a line still points at makes the
    delete throw.
  */
  function Delete(s: Store, p: Principal, id: Id): (r: (Store, Response<()>))
    requires Valid(s)
    ensures Valid(r.0)
  {
    if !HasRole(p, "ADMIN") then (s, Forbidden403)
    else if id !in s.products then (s, NoContent204)
    else
      match DeleteProduto(s, id)
      case Err(e) => (s, Thrown(e))
      case Ok(s') => (s', NoContent204)
  }

  // ---------------------------------------------------------------------
  // Endpoint outcomes
  // ---------------------------------------------------------------------

  /**
    `save` refuses a body with an id and stores nothing; otherwise it stores
    the body's fields unchanged under a fresh id (a missing availability
    stays missing).
  */
  lemma SaveOutcomes(s: Store, p: Principal, d: ProductData)
    requires Valid(s) && HasRole(p, "ADMIN")
    ensures d.id.Some? ==> Save(s, p, d) == (s, BadRequest400)
    ensures d.id.None? ==>
      var (s', r) := Save(s, p, d);
      && s.nextProduct !in s.products
      && s'.products == s.products[s.nextProduct := FieldsOf(d)]
      && s'.products[s.nextProduct].disponibilidade == d.disponibilidade
      && r == Created201(d.(id := Some(s.nextProduct)))
  {
  }

  /**
    `update` answers 400 when the body's id is missing or differs from the
    path's, 404 for a missing product, and otherwise replaces all six fields
    while keeping the id.
  */
  lemma UpdateOutcomes(s: Store, p: Principal, id: Id, d: ProductData)
    requires Valid(s) && HasRole(p, "ADMIN")
    ensures d.id != Some(id) ==> Update(s, p, id, d) == (s, BadRequest400)
    ensures d.id == Some(id) && id !in s.products ==> Update(s, p, id, d) == (s, NotFound404)
    ensures d.id == Some(id) && id in s.products ==>
      var (s', r) := Update(s, p, id, d);
      && s'.products == s.products[id := FieldsOf(d)]
      && s'.products.Keys == s.products.Keys
      && r == Ok200(d)
  {
  }

  /** A missing id deletes nothing and still answers 204. */
  lemma DeleteMissingIsNoOp(s: Store, p: Principal, id: Id)
    requires Valid(s) && HasRole(p, "ADMIN") && id !in s.products
    ensures Delete(s, p, id) == (s, NoContent204)
  {
  }

  /** Without the ADMIN authority, no write endpoint changes anything. */
  lemma WritesNeedAdmin(s: Store, p: Principal, id: Id, d: ProductData)
    requires Valid(s) && !HasRole(p, "ADMIN")
    ensures Save(s, p, d) == (s, Forbidden403)
    ensures Update(s, p, id, d) == (s, Forbidden403)
    ensures Delete(s, p, id) == (s, Forbidden403)
  {
  }
}

=== FILE: product_service.dfy ===
/**
  `ProdutoService`: the catalogue operations on the product table, and the
  `ProdutoDTO` shape they exchange. Every field of the DTO except the id
  is carried over to the entity as given, nulls included.
*/
module ProductService {
  import opened Outcomes
  import opened Keys
  import opened Store

  /** `ProdutoDTO`: a product's fields plus an id that may be absent. */
  datatype ProductData = ProductData(
    id: Option<Id>,
    nome: string,
    descricao: string,
    preco: Option<int>,
    categoria: string,
    disponibilidade: Option<bool>,
    imagem: string)

  /** The entity fields of a DTO, its id aside (`copyProperties` into a fresh `Produto`). */
  function FieldsOf(d: ProductData): Product {
    Product(d.nome, d.descricao, d.preco, d.categoria, d.disponibilidade, d.imagem)
  }

  /** `convertToDto`: the stored product with its id. */
  function ToData(id: Id, p: Product): ProductData {
    ProductData(Some(id), p.nome, p.descricao, p.preco, p.categoria, p.disponibilidade, p.imagem)
  }

  /** Converting to a DTO and back loses nothing; neither does the reverse for a DTO with an id. */
  lemma DataRoundTrip(id: Id, p: Product, d: ProductData)
    ensures FieldsOf(ToData(id, p)) == p
    ensures d.id == Some(id) ==> ToData(id, FieldsOf(d)) == d
  {
  }

  /** Some cart line or order line still points at product `p`. */
  predicate Referenced(s: Store, p: Id) {
    || (exists i :: i in s.items && s.items[i].line.product == p)
    || (exists o, k :: o in s.orders && 0 <= k < |s.orders[o].items| && s.orders[o].items[k].line.product == p)
  }

  /** Saves `fields` under the next product id. */
  function Insert(s: Store, fields: Product): (r: (Store, ProductData))
    requires Valid(s)
    ensures Valid(r.0)
    ensures s.nextProduct !in s.products
    ensures r.0 == s.(products := s.products[s.nextProduct := fields], nextProduct := s.nextProduct + 1)
    ensures r.1 == ToData(s.nextProduct, fields)
  {
    var s' := s.(products := s.products[s.nextProduct := fields], nextProduct := s.nextProduct + 1);
    ValidAfterProducts(s, s');
    (s', ToData(s.nextProduct, fields))
  }

  /** Replaces the fields of existing product `p`, keeping its id. */
  function Overwrite(s: Store, p: Id, fields: Product): (s': Store)
    requires Valid(s) && p in s.products
    ensures Valid(s')
    ensures s' == s.(products := s.products[p := fields])
  {
    var s' := s.(products := s.products[p := fields]);
    ValidAfterProducts(s, s');
    s'
  }

  /** `createProduto`: the DTO's id is ignored, and a missing availability becomes true. */
  function CreateProduto(s: Store, d: ProductData): (r: (Store, ProductData))
    requires Valid(s)
    ensures Valid(r.0)
    ensures r.1.id == Some(s.nextProduct) && s.nextProduct !in s.products
    ensures r.1.disponibilidade.Some?
  {
    var fields := FieldsOf(d);
    Insert(s, if fields.disponibilidade.None? then fields.(disponibilidade := Some(true)) else fields)
  }

  /** The ids of every product, in id order (`findAll`). */
  function AllProducts(s: Store): seq<Id> {
    KeysWhere(s.products, (p: Product) => true, 0, s.nextProduct)
  }

  predicate IsActive(p: Product) { p.disponibilidade == Some(true) }

  /** The ids of the available products, in id order (`findByDisponibilidadeTrue`). */
  function ActiveProducts(s: Store): seq<Id> {
    KeysWhere(s.products, IsActive, 0, s.nextProduct)
  }

  /** The DTOs of the products `ids`, in that order: each carries its product's id and stored fields. */
  function ToDataAll(s: Store, ids: seq<Id>): (ds: seq<ProductData>)
    requires forall p :: p in ids ==> p in s.products
    ensures |ds| == |ids|
    ensures forall k :: 0 <= k < |ds| ==> ds[k].id == Some(ids[k]) && FieldsOf(ds[k]) == s.products[ids[k]]
  {
    seq(|ids|, k requires 0 <= k < |ids| => ToData(ids[k], s.products[ids[k]]))
  }

  /** `getAllProdutos`. */
  function GetAllProdutos(s: Store): (ds: seq<ProductData>)
    requires Valid(s)
    ensures |ds| == |s.products|
    ensures forall p :: p in s.products <==> exists k :: 0 <= k < |ds| && ds[k].id == Some(p)
    ensures forall k :: 0 <= k < |ds| ==>
      ds[k].id.Some? && ds[k].id.value in s.products && FieldsOf(ds[k]) == s.products[ds[k].id.value]
  {
    AllProductsListed(s);
    ToDataAll(s, AllProducts(s))
  }

  /** Every stored product appears in the full list, once. */
  lemma AllProductsListed(s: Store)
    requires Valid(s)
    ensures |AllProducts(s)| == |s.products|
    ensures forall p :: p in s.products ==>
      exists k :: 0 <= k < |AllProducts(s)| && ToDataAll(s, AllProducts(s))[k].id == Some(p)
  {
    var ids := AllProducts(s);
    var ds := ToDataAll(s, ids);
    forall p | p in s.products
      ensures exists k :: 0 <= k < |ids| && ds[k].id == Some(p)
    {
      var k :| 0 <= k < |ids| && ids[k] == p;
      assert ds[k].id == Some(p);
    }
    IncreasingCard(ids, s.products.Keys);
  }

  /** `getActiveProdutos`. */
  function GetActiveProdutos(s: Store): (ds: seq<ProductData>)
    ensures forall k :: 0 <= k < |ds| ==>
      ds[k].id.Some? && ds[k].id.value in s.products && FieldsOf(ds[k]) == s.products[ds[k].id.value]
    ensures forall k :: 0 <= k < |ds| ==> ds[k].disponibilidade == Some(true)
    ensures forall a, b :: 0 <= a < b < |ds| ==> ds[a].id != ds[b].id
  {
    ToDataAll(s, ActiveProducts(s))
  }

  /** `getProdutoById`. */
  function GetProdutoById(s: Store, p: Id): (r: Option<ProductData>)
    ensures r.Some? <==> p in s.products
    ensures r.Some? ==> r.value.id == Some(p) && FieldsOf(r.value) == s.products[p]
  {
    if p in s.products then Some(ToData(p, s.products[p])) else None
  }

  /** `updateProduto`: every field of the DTO replaces the stored one, its id excepted. */
  function UpdateProduto(s: Store, p: Id, d: ProductData): (r: Result<(Store, ProductData)>)
    requires Valid(s)
    ensures r.Ok? ==> Valid(r.value.0)
    ensures r.Err? <==> p !in s.products
    ensures r.Err? ==> r.error == ProductNotFound
  {
    if p !in s.products then Err(ProductNotFound)
    else Ok((Overwrite(s, p, FieldsOf(d)), ToData(p, FieldsOf(d))))
  }

  /**
    `deleteProduto`. A product a cart or order line still points at cannot
    be deleted: the foreign key of that line rejects it.
  */
  function DeleteProduto(s: Store, p: Id): (r: Result<Store>)
    requires Valid(s)
    ensures r.Ok? ==> Valid(r.value)
    ensures r.Err? <==> p !in s.products || Referenced(s, p)
    ensures r.Ok? ==> p !in r.value.products
  {
    if p !in s.products then Err(ProductNotFound)
    else if Referenced(s, p) then Err(ProductReferenced)
    else
      var s' := s.(products := s.products - {p});
      assert ItemsReferenceRows(s');
      assert OrdersConsistent(s');
      Ok(s')
  }

  /** `toggleProdutoDisponibilidade`: sets the availability to the given value. */
  function ToggleDisponibilidade(s: Store, p: Id, on: bool): (r: Result<(Store, ProductData)>)
    requires Valid(s)
    ensures r.Ok? ==> Valid(r.value.0)
    ensures r.Err? <==> p !in s.products
    ensures r.Ok? ==> p in r.value.0.products && r.value.0.products[p].disponibilidade == Some(on)
  {
    if p !in s.products then Err(ProductNotFound)
    else
      var fields := s.products[p].(disponibilidade := Some(on));
      Ok((Overwrite(s, p, fields), ToData(p, fields)))
  }

  // ---------------------------------------------------------------------
  // What the operations do to the product table
  // ---------------------------------------------------------------------

  /**
    Creating stores one new product under a fresh id, whatever id the DTO
    carried; its fields are the DTO's, except that a missing availability
    becomes true. No existing product changes.
  */
  lemma CreateProdutoStores(s: Store, d: ProductData)
    requires Valid(s)
    ensures var (s', r) := CreateProduto(s, d);
      && s.nextProduct !in s.products
      && s'.products.Keys == s.products.Keys + {s.nextProduct}
      && (forall q :: q in s.products ==> s'.products[q] == s.products[q])
      && var np := s'.products[s.nextProduct];
         && np.nome == d.nome && np.descricao == d.descricao && np.preco == d.preco
         && np.categoria == d.categoria && np.imagem == d.imagem
         && np.disponibilidade == (if d.disponibilidade.None? then Some(true) else d.disponibilidade)
         && r == ToData(s.nextProduct, np)
  {
  }

  /** The incoming id has no effect on what is created. */
  lemma CreateProdutoIgnoresId(s: Store, d: ProductData, other: Option<Id>)
    requires Valid(s)
    ensures CreateProduto(s, d.(id := other)) == CreateProduto(s, d)
  {
  }

  /** The active list holds exactly the products whose availability is true, null and false excluded. */
  lemma ActiveProdutosAre(s: Store)
    requires Valid(s)
    ensures var ds := GetActiveProdutos(s);
      forall p :: (p in s.products && s.products[p].disponibilidade == Some(true)) <==>
                  exists k :: 0 <= k < |ds| && ds[k].id == Some(p)
  {
    var ids := ActiveProducts(s);
    var ds := GetActiveProdutos(s);
    forall p | p in s.products && s.products[p].disponibilidade == Some(true)
      ensures exists k :: 0 <= k < |ds| && ds[k].id == Some(p)
    {
      assert IsActive(s.products[p]);
      var k :| 0 <= k < |ids| && ids[k] == p;
      assert ds[k].id == Some(p);
    }
    forall p | exists k :: 0 <= k < |ds| && ds[k].id == Some(p)
      ensures p in s.products && s.products[p].disponibilidade == Some(true)
    {
      var k :| 0 <= k < |ds| && ds[k].id == Some(p);
      assert ids[k] in ids;
    }
  }

  /**
    Updating a missing product fails; otherwise every field but the id is
    replaced by the DTO's (nulls included) and no other product changes.
  */
  lemma UpdateProdutoEffect(s: Store, p: Id, d: ProductData)
    requires Valid(s)
    ensures p !in s.products ==> UpdateProduto(s, p, d) == Err(ProductNotFound)
    ensures p in s.products ==>
      && UpdateProduto(s, p, d).Ok?
      && var (s', r) := UpdateProduto(s, p, d).value;
         && s' == s.(products := s'.products)
         && s'.products.Keys == s.products.Keys
         && s'.products[p] == FieldsOf(d)
         && (forall q :: q in s.products && q != p ==> s'.products[q] == s.products[q])
         && r.id == Some(p)
  {
  }

  /**
    Deleting a missing product fails, so does deleting one a line still
    points at; otherwise exactly that product is removed and nothing else
    changes.
  */
  lemma DeleteProdutoEffect(s: Store, p: Id)
    requires Valid(s)
    ensures p !in s.products ==> DeleteProduto(s, p) == Err(ProductNotFound)
    ensures p in s.products && Referenced(s, p) ==> DeleteProduto(s, p) == Err(ProductReferenced)
    ensures p in s.products && !Referenced(s, p) ==>
      DeleteProduto(s, p) == Ok(s.(products := s.products - {p}))
  {
  }

  /** Toggling changes the availability flag of that one product and nothing else. */
  lemma ToggleEffect(s: Store, p: Id, on: bool)
    requires Valid(s)
    ensures p !in s.products ==> ToggleDisponibilidade(s, p, on) == Err(ProductNotFound)
    ensures p in s.products ==>
      && ToggleDisponibilidade(s, p, on).Ok?
      && var (s', r) := ToggleDisponibilidade(s, p, on).value;
         && s' == s.(products := s.products[p := s.products[p].(disponibilidade := Some(on))])
         && r.disponibilidade == Some(on) && r.id == Some(p)
  {
  }
}

=== FILE: registration.dfy ===
/**
  Sign-up: the field rules of `UserRegisterDTO` (checked by bean
  validation before the endpoint runs) and `AuthController.registerUser`.
  The submitted email serves as both username and email; the name is
  stored as given and the password only through the password encoder.

  The email-format check and the password encoder belong to libraries
  that are not part of this model; they are parameters.
*/
module Registration {
  import opened Outcomes
  import opened Keys
  import opened Store

  /** The sign-up form. */
  datatype RegisterForm = RegisterForm(nome: string, email: string, password: string)

  /** `@NotBlank` fails: `trim()` drops every character up to and including the space, and nothing is left. */
  predicate IsBlank(x: string) {
    forall k :: 0 <= k < |x| ==> x[k] <= ' '
  }

  /** `String.length()`: UTF-16 code units, two for a character outside the Basic Multilingual Plane. */
  function Utf16Length(x: string): (n: nat)
    ensures |x| <= n <= 2 * |x|
    ensures (forall k :: 0 <= k < |x| ==> x[k] as int <= 0xFFFF) ==> n == |x|
  {
    if |x| == 0 then 0
    else Utf16Length(x[..|x| - 1]) + (if x[|x| - 1] as int > 0xFFFF then 2 else 1)
  }

  /** `nome`: not blank, 3 to 40 characters. */
  predicate ValidNome(x: string) {
    !IsBlank(x) && 3 <= Utf16Length(x) <= 40
  }

  /** `email`: not blank, email-shaped, at most 40 characters. */
  predicate ValidEmail(x: string, isEmail: string -> bool) {
    !IsBlank(x) && isEmail(x) && Utf16Length(x) <= 40
  }

  /** `password`: not blank, 6 to 20 characters. */
  predicate ValidPassword(x: string) {
    !IsBlank(x) && 6 <= Utf16Length(x) <= 20
  }

  predicate ValidForm(f: RegisterForm, isEmail: string -> bool) {
    ValidNome(f.nome) && ValidEmail(f.email, isEmail) && ValidPassword(f.password)
  }

  /** A value made only of spaces fails every field, whatever its length. */
  lemma WhitespaceIsBlank(n: nat, isEmail: string -> bool)
    ensures var x := seq(n, _ => ' ');
      !ValidNome(x) && !ValidEmail(x, isEmail) && !ValidPassword(x)
  {
  }

  /** Blankness, not length, decides: a 3-character blank name is refused, a 3-letter one accepted. */
  lemma BlankNameRefused()
    ensures !ValidNome("   ") && !ValidNome("\t \n")
    ensures ValidNome("Ana")
  {
    assert "Ana"[0] == 'A';
    assert Utf16Length("Ana") == 3;
  }

  /** The user sign-up creates. */
  function NewUser(f: RegisterForm, encode: string -> string): User {
    User(f.nome, f.email, f.email, encode(f.password), {CLIENTE})
  }

  /**
    `POST /api/auth/signup`. An invalid form, an email already used as
    someone's username, or an email already registered is a 400 and
    nothing is saved; otherwise the new user is saved and the answer is 201.
  */
  function RegisterUser(s: Store, f: RegisterForm, isEmail: string -> bool, encode: string -> string)
    : (r: (Store, Response<()>))
    requires Valid(s)
    ensures Valid(r.0)
    ensures r.1.BadRequest400? || r.1.Created201?
    ensures r.1.BadRequest400? ==> r.0 == s
  {
    if !ValidForm(f, isEmail) then (s, BadRequest400)
    else if UsernameExists(s, f.email) then (s, BadRequest400)
    else if EmailExists(s, f.email) then (s, BadRequest400)
    else
      ExistsIff(s, f.email);
      var s' := s.(users := s.users[s.nextUser := NewUser(f, encode)], nextUser := s.nextUser + 1);
      assert UniqueLogins(s');
      ValidAfterUsers(s, s');
      (s', Created201(()))
  }

  /**
    Sign-up succeeds exactly when the form is valid and its email is used
    by no one, as username or as email; the new user has that email as
    username and email, the submitted name, the encoded password and
    exactly the role CLIENTE, and no existing user changes.
  */
  lemma RegisterUserOutcome(s: Store, f: RegisterForm, isEmail: string -> bool, encode: string -> string)
    requires Valid(s)
    ensures var (s', r) := RegisterUser(s, f, isEmail, encode);
      && (r.Created201? <==>
           && ValidForm(f, isEmail)
           && (forall u :: u in s.users ==> s.users[u].username != f.email && s.users[u].email != f.email))
      && (r.Created201? ==>
           && s.nextUser !in s.users
           && s'.users == s.users[s.nextUser := s'.users[s.nextUser]]
           && s'.users[s.nextUser].username == f.email
           && s'.users[s.nextUser].email == f.email
           && s'.users[s.nextUser].name == f.nome
           && s'.users[s.nextUser].password == encode(f.password)
           && s'.users[s.nextUser].roles == {CLIENTE}
           && s' == s.(users := s'.users, nextUser := s.nextUser + 1))
  {
    ExistsIff(s, f.email);
  }

  /** Registering the same email twice: the second attempt is refused and saves nothing. */
  lemma RegisterTwiceRefused(s: Store, f: RegisterForm, g: RegisterForm, isEmail: string -> bool, encode: string -> string)
    requires Valid(s) && g.email == f.email
    requires RegisterUser(s, f, isEmail, encode).1.Created201?
    ensures var s' := RegisterUser(s, f, isEmail, encode).0;
      RegisterUser(s', g, isEmail, encode) == (s', BadRequest400)
  {
    var s' := RegisterUser(s, f, isEmail, encode).0;
    RegisterUserOutcome(s, f, isEmail, encode);
    ExistsIff(s', g.email);
    assert s'.users[s.nextUser].username == g.email;
  }
}

=== FILE: scenarios.dfy ===
/**
  Two end-to-end runs of the cart and checkout, with concrete prices in
  cents: the lemmas of the cart and order modules composed step by step.
*/
module Scenarios {
  import opened Outcomes
  import opened Keys
  import opened Money
  import opened Store
  import opened CartService
  import opened CartProperties
  import opened OrderService
  import opened OrderProperties

  /** A cart no line points at has no lines. */
  lemma NoRowsNoLines(s: Store, c: Id)
    requires Valid(s)
    requires forall j :: j in s.items ==> s.items[j].cart != c
    ensures LinesOf(s, c) == []
  {
    LinesOfMembers(s, c);
    NoMembersEmpty(LinesOf(s, c));
  }

  /** The response for a cart whose only line is `l`. */
  lemma OneLineView(s: Store, c: Id, i: Id, l: Line)
    requires Valid(s) && c in s.carts && LinesOf(s, c) == [i] && i in s.items && s.items[i].line == l
    ensures var v := ViewCart(s, c);
      |v.lines| == 1 && v.lines[0].id == i && v.lines[0].quantity == l.quantity && v.total == Subtotal(l)
  {
    assert CartLines(s, c) == [l];
    TotalOfOne(l);
  }

  /** Step one: a first add of 2 creates the cart's only line. */
  lemma FirstAdd(s: Store, u: Id, c: Id, p: Id, t1: Time)
    requires Valid(s) && c in s.carts && s.carts[c].owner == u && LinesOf(s, c) == []
    requires p in s.products && s.products[p].preco == Some(3500) && s.products[p].disponibilidade == Some(true)
    ensures AddItem(s, u, p, 2, t1).Ok?
    ensures var (s1, v1) := AddItem(s, u, p, 2, t1).value;
      && c in s1.carts && s1.carts[c].owner == u && s1.products == s.products
      && LinesOf(s1, c) == [s.nextItem]
      && s.nextItem in s1.items && s1.items[s.nextItem] == CartItem(c, Line(p, 2, 3500))
      && v1 == ViewCart(s1, c)
      && |v1.lines| == 1 && v1.lines[0].id == s.nextItem && v1.lines[0].quantity == 2 && v1.total == 7000
  {
    LinesOfMembers(s, c);
    assert forall j :: j in s.items && s.items[j].cart == c ==> j in LinesOf(s, c);
    AddItemCreatesLine(s, u, p, 2, t1, c);
    CartOfIs(s, u, c);
    var (s1, v1) := AddItem(s, u, p, 2, t1).value;
    LinesOfAfterNewLine(s, s1, c, Line(p, 2, 3500));
    OneLineView(s1, c, s.nextItem, Line(p, 2, 3500));
  }

  /** Step two: adding 1 more merges into that line. */
  lemma SecondAdd(s1: Store, u: Id, c: Id, p: Id, i: Id, t2: Time)
    requires Valid(s1) && c in s1.carts && s1.carts[c].owner == u && LinesOf(s1, c) == [i]
    requires p in s1.products && s1.products[p].disponibilidade == Some(true)
    requires i in s1.items && s1.items[i] == CartItem(c, Line(p, 2, 3500))
    ensures AddItem(s1, u, p, 1, t2).Ok?
    ensures var (s2, v2) := AddItem(s1, u, p, 1, t2).value;
      && c in s2.carts && s2.carts[c].owner == u
      && LinesOf(s2, c) == [i]
      && i in s2.items && s2.items[i] == CartItem(c, Line(p, 3, 3500))
      && v2 == ViewCart(s2, c)
      && |v2.lines| == 1 && v2.lines[0].id == i && v2.lines[0].quantity == 3 && v2.total == 10500
  {
    AddItemMerges(s1, u, p, 1, t2, c, i);
    AddItemUnfolds(s1, u, p, 1, t2, c);
    CartOfIs(s1, u, c);
    var s2 := AddItem(s1, u, p, 1, t2).value.0;
    assert AddItem(s1, u, p, 1, t2).value.1 == ViewCart(s2, c);
    forall j ensures (j in s2.items && s2.items[j].cart == c) <==> (j in s1.items && s1.items[j].cart == c) {
      if j != i {
        assert j in s2.items <==> j in s1.items;
      }
    }
    LinesOfSameRows(s1, s2, c);
    OneLineView(s2, c, i, Line(p, 3, 3500));
  }

  /** Step three: setting the only line to 0 empties the cart. */
  lemma UpdateToZero(s2: Store, u: Id, c: Id, i: Id, t3: Time)
    requires Valid(s2) && c in s2.carts && s2.carts[c].owner == u && LinesOf(s2, c) == [i]
    requires i in s2.items && s2.items[i].cart == c
    ensures UpdateItemQuantity(s2, u, i, 0, t3).Ok?
    ensures var (s3, v3) := UpdateItemQuantity(s2, u, i, 0, t3).value;
      v3.lines == [] && v3.total == 0
  {
    UpdateItemQuantitySets(s2, u, i, 0, t3, c);
    var (s3, v3) := UpdateItemQuantity(s2, u, i, 0, t3).value;
    LinesOfMembers(s2, c);
    assert forall j :: j in s2.items && s2.items[j].cart == c ==> j == i;
    NoRowsNoLines(s3, c);
  }

  /** Steps two and three, from the cart holding one line of 2. */
  lemma AddThenUpdate(s1: Store, u: Id, c: Id, p: Id, i: Id, t2: Time, t3: Time)
    requires Valid(s1) && c in s1.carts && s1.carts[c].owner == u && LinesOf(s1, c) == [i]
    requires p in s1.products && s1.products[p].disponibilidade == Some(true)
    requires i in s1.items && s1.items[i] == CartItem(c, Line(p, 2, 3500))
    ensures AddItem(s1, u, p, 1, t2).Ok?
    ensures var (s2, v2) := AddItem(s1, u, p, 1, t2).value;
      && |v2.lines| == 1 && v2.lines[0].id == i && v2.lines[0].quantity == 3 && v2.total == 10500
      && UpdateItemQuantity(s2, u, i, 0, t3).Ok?
      && var (s3, v3) := UpdateItemQuantity(s2, u, i, 0, t3).value;
         v3.lines == [] && v3.total == 0
  {
    SecondAdd(s1, u, c, p, i, t2);
    var s2 := AddItem(s1, u, p, 1, t2).value.0;
    UpdateToZero(s2, u, c, i, t3);
  }

  /**
    Empty cart; add a 35.00 product twice: total 70.00. Add it once more:
    one line of quantity 3, total 105.00. Set that line to 0: no lines,
    total 0.00.
  */
  lemma AddAddUpdateScenario(s: Store, u: Id, c: Id, p: Id, t1: Time, t2: Time, t3: Time)
    requires Valid(s) && c in s.carts && s.carts[c].owner == u && LinesOf(s, c) == []
    requires p in s.products && s.products[p].preco == Some(3500) && s.products[p].disponibilidade == Some(true)
    ensures AddItem(s, u, p, 2, t1).Ok?
    ensures var (s1, v1) := AddItem(s, u, p, 2, t1).value;
      && |v1.lines| == 1 && v1.lines[0].quantity == 2 && v1.total == 7000
      && AddItem(s1, u, p, 1, t2).Ok?
      && var (s2, v2) := AddItem(s1, u, p, 1, t2).value;
         && |v2.lines| == 1 && v2.lines[0].id == v1.lines[0].id
         && v2.lines[0].quantity == 3 && v2.total == 10500
         && UpdateItemQuantity(s2, u, v2.lines[0].id, 0, t3).Ok?
         && var (s3, v3) := UpdateItemQuantity(s2, u, v2.lines[0].id, 0, t3).value;
            v3.lines == [] && v3.total == 0
  {
    FirstAdd(s, u, c, p, t1);
    var s1 := AddItem(s, u, p, 2, t1).value.0;
    AddThenUpdate(s1, u, c, p, s.nextItem, t2, t3);
  }

  /** The total of two lines is the sum of their subtotals. */
  lemma TotalOfTwo(a: Line, b: Line)
    ensures Total([a, b]) == Subtotal(a) + Subtotal(b)
  {
    assert [a, b][..1] == [a];
    TotalOfOne(a);
  }

  /**
    A cart holding 2 of a 35.00 product and 1 of a 20.00 product checks out
    into an order of two lines totalling 90.00, and the cart is left empty.
  */
  lemma CheckoutScenario(s: Store, u: Id, c: Id, p1: Id, p2: Id, now: Time)
    requires Valid(s) && c in s.carts && s.carts[c].owner == u
    requires CartLines(s, c) == [Line(p1, 2, 3500), Line(p2, 1, 2000)]
    ensures Finalize(s, u, now).Ok?
    ensures var (s', v) := Finalize(s, u, now).value;
      v.total == 9000 && |v.lines| == 2 && LinesOf(s', c) == []
  {
    TotalOfTwo(Line(p1, 2, 3500), Line(p2, 1, 2000));
    FinalizeCreatesOrder(s, u, now, c);
  }
}

=== FILE: store.dfy ===
/**
  The persistent state of the menu backend as one immutable value: the
  tables behind the JPA entities `User`, `Produto`, `Carrinho`,
  `ItemCarrinho` and `Pedido` (with its `ItemPedido` rows), each keyed by
  an id drawn from its own counter as `GenerationType.IDENTITY` does.

  A cart does not store its own list of lines: as with the
  `mappedBy = "carrinho"` collection, the lines of cart `c` are the item
  rows whose `cart` column is `c`, read back in id order.
*/
module Store {
  import opened Outcomes
  import opened Keys
  import opened Money

  /** A `LocalDateTime`, as an ordered instant supplied by the caller. */
  type Time = int

  datatype Role = CLIENTE | ADMIN

  /** The `StatusPedido` enum; its declaration is not part of this model, see README. */
  datatype Status = PENDENTE | CANCELADO | FINALIZADO

  datatype User = User(
    name: string,
    username: string,
    email: string,
    password: string,
    roles: set<Role>)

  /**
    A catalogue product. Price and availability are nullable columns in
    the source, and both nulls change behaviour, so they are options.
    The category enum is carried by its constant name.
  */
  datatype Product = Product(
    nome: string,
    descricao: string,
    preco: Option<int>,
    categoria: string,
    disponibilidade: Option<bool>,
    imagem: string)

  datatype Cart = Cart(owner: Id, created: Time, updated: Time)

  /** A cart line: the cart it belongs to and its (product, quantity, unit price). */
  datatype CartItem = CartItem(cart: Id, line: Line)

  /** An order line: its own id and the line content copied at checkout. */
  datatype OrderItem = OrderItem(id: Id, line: Line)

  /** The line contents of order lines, in order. */
  function ItemLines(items: seq<OrderItem>): (lines: seq<Line>)
    ensures |lines| == |items|
    ensures forall k :: 0 <= k < |items| ==> lines[k] == items[k].line
  {
    seq(|items|, k requires 0 <= k < |items| => items[k].line)
  }

  datatype Order = Order(
    owner: Id,
    date: Time,
    status: Status,
    total: int,
    items: seq<OrderItem>)
  {
    /** The line contents of this order, in order. */
    function Lines(): seq<Line> {
      ItemLines(items)
    }
  }

  datatype Store = Store(
    users: map<Id, User>, nextUser: Id,
    products: map<Id, Product>, nextProduct: Id,
    carts: map<Id, Cart>, nextCart: Id,
    items: map<Id, CartItem>, nextItem: Id,
    orders: map<Id, Order>, nextOrder: Id,
    nextOrderItem: Id)

  // ---------------------------------------------------------------------
  // Integrity of the store: what the database schema and the services
  // together keep true of every reachable state.
  // ---------------------------------------------------------------------

  /** Every key was handed out by its table's counter. */
  ghost predicate KeysBelowCounters(s: Store) {
    && (forall k :: k in s.users ==> k < s.nextUser)
    && (forall k :: k in s.products ==> k < s.nextProduct)
    && (forall k :: k in s.carts ==> k < s.nextCart)
    && (forall k :: k in s.items ==> k < s.nextItem)
    && (forall k :: k in s.orders ==> k < s.nextOrder)
  }

  /** Every line of `items` has an id below `n`. */
  ghost predicate IdsBelow(items: seq<OrderItem>, n: int) {
    forall k :: 0 <= k < |items| ==> items[k].id < n
  }

  /** Every stored order line's id was handed out by the order-line counter. */
  ghost predicate OrderLineIdsBelow(s: Store) {
    forall o :: o in s.orders ==> IdsBelow(s.orders[o].items, s.nextOrderItem)
  }

  /** The `unique = true` columns `username` and `email` of `users`. */
  ghost predicate UniqueLogins(s: Store) {
    forall a, b :: a in s.users && b in s.users && a != b ==>
      s.users[a].username != s.users[b].username && s.users[a].email != s.users[b].email
  }

  /** Each cart belongs to an existing user, and no user owns two carts (`user_id` unique). */
  ghost predicate OneCartPerUser(s: Store) {
    && (forall c :: c in s.carts ==> s.carts[c].owner in s.users)
    && (forall c, d :: c in s.carts && d in s.carts && c != d ==> s.carts[c].owner != s.carts[d].owner)
  }

  /** Cart lines reference an existing cart and product (the NOT NULL foreign keys). */
  ghost predicate ItemsReferenceRows(s: Store) {
    forall i :: i in s.items ==> s.items[i].cart in s.carts && s.items[i].line.product in s.products
  }

  /** No stored cart line has a quantity of zero or less. */
  ghost predicate PositiveQuantities(s: Store) {
    forall i :: i in s.items ==> s.items[i].line.quantity > 0
  }

  /** At most one line per (cart, product) pair. */
  ghost predicate OneLinePerProduct(s: Store) {
    forall i, j :: i in s.items && j in s.items && i != j && s.items[i].cart == s.items[j].cart ==>
      s.items[i].line.product != s.items[j].line.product
  }

  /** Orders belong to existing users, reference existing products, and store their lines' total. */
  ghost predicate OrdersConsistent(s: Store) {
    forall o :: o in s.orders ==>
      && s.orders[o].owner in s.users
      && s.orders[o].total == Total(s.orders[o].Lines())
      && forall k :: 0 <= k < |s.orders[o].items| ==> s.orders[o].items[k].line.product in s.products
  }

  ghost predicate Valid(s: Store) {
    && KeysBelowCounters(s)
    && OrderLineIdsBelow(s)
    && UniqueLogins(s)
    && OneCartPerUser(s)
    && ItemsReferenceRows(s)
    && PositiveQuantities(s)
    && OneLinePerProduct(s)
    && OrdersConsistent(s)
  }

  /** A change confined to the cart-line table keeps the store valid when the new rows do. */
  lemma ValidAfterItems(s: Store, s': Store)
    requires Valid(s)
    requires s' == s.(items := s'.items, nextItem := s'.nextItem)
    requires forall i :: i in s'.items ==> i < s'.nextItem
    requires ItemsReferenceRows(s') && PositiveQuantities(s') && OneLinePerProduct(s')
    ensures Valid(s')
  {
  }

  /** Adding a line under the next id, for a cart and product that exist and that cart's first line of that product, keeps the store valid. */
  lemma ValidAfterNewItem(s: Store, it: CartItem)
    requires Valid(s)
    requires it.cart in s.carts && it.line.product in s.products && it.line.quantity > 0
    requires forall i :: i in s.items && s.items[i].cart == it.cart ==> s.items[i].line.product != it.line.product
    ensures Valid(s.(items := s.items[s.nextItem := it], nextItem := s.nextItem + 1))
  {
    var s' := s.(items := s.items[s.nextItem := it], nextItem := s.nextItem + 1);
    NewItemRowsValid(s, it);
    NewItemOneLine(s, it);
    ValidAfterItems(s, s');
  }

  lemma NewItemRowsValid(s: Store, it: CartItem)
    requires KeysBelowCounters(s) && ItemsReferenceRows(s) && PositiveQuantities(s)
    requires it.cart in s.carts && it.line.product in s.products && it.line.quantity > 0
    ensures var s' := s.(items := s.items[s.nextItem := it], nextItem := s.nextItem + 1);
      && (forall i :: i in s'.items ==> i < s'.nextItem)
      && ItemsReferenceRows(s') && PositiveQuantities(s')
  {
  }

  lemma NewItemOneLine(s: Store, it: CartItem)
    requires KeysBelowCounters(s) && OneLinePerProduct(s)
    requires forall i :: i in s.items && s.items[i].cart == it.cart ==> s.items[i].line.product != it.line.product
    ensures OneLinePerProduct(s.(items := s.items[s.nextItem := it], nextItem := s.nextItem + 1))
  {
    assert s.nextItem !in s.items;
  }

  /** Setting an existing line's quantity to a positive value keeps the store valid. */
  lemma ValidAfterQuantity(s: Store, i: Id, q: int)
    requires Valid(s) && i in s.items && q > 0
    ensures Valid(s.(items := s.items[i := s.items[i].(line := s.items[i].line.(quantity := q))]))
  {
    var s' := s.(items := s.items[i := s.items[i].(line := s.items[i].line.(quantity := q))]);
    QuantityRowsValid(s, i, q);
    QuantityOneLine(s, i, q);
    ValidAfterItems(s, s');
  }

  lemma QuantityRowsValid(s: Store, i: Id, q: int)
    requires KeysBelowCounters(s) && ItemsReferenceRows(s) && PositiveQuantities(s)
    requires i in s.items && q > 0
    ensures var s' := s.(items := s.items[i := s.items[i].(line := s.items[i].line.(quantity := q))]);
      && (forall j :: j in s'.items ==> j < s'.nextItem)
      && ItemsReferenceRows(s') && PositiveQuantities(s')
  {
  }

  lemma QuantityOneLine(s: Store, i: Id, q: int)
    requires OneLinePerProduct(s) && i in s.items
    ensures OneLinePerProduct(s.(items := s.items[i := s.items[i].(line := s.items[i].line.(quantity := q))]))
  {
  }

  /** Changing only cart records, keeping their ids and owners, keeps the store valid. */
  lemma ValidAfterCarts(s: Store, s': Store)
    requires Valid(s)
    requires s' == s.(carts := s'.carts)
    requires s'.carts.Keys == s.carts.Keys
    requires forall c :: c in s.carts ==> s'.carts[c].owner == s.carts[c].owner
    ensures Valid(s')
  {
    assert KeysBelowCounters(s');
    assert OneCartPerUser(s');
    assert ItemsReferenceRows(s');
  }

  /** Adding or replacing products, under ids below the counter, keeps the store valid. */
  lemma ValidAfterProducts(s: Store, s': Store)
    requires Valid(s)
    requires s' == s.(products := s'.products, nextProduct := s'.nextProduct)
    requires s.products.Keys <= s'.products.Keys
    requires forall k :: k in s'.products ==> k < s'.nextProduct
    ensures Valid(s')
  {
    assert KeysBelowCounters(s');
    assert ItemsReferenceRows(s');
    assert OrdersConsistent(s');
  }

  /** Adding or changing users, under ids below the counter and with unique logins, keeps the store valid. */
  lemma ValidAfterUsers(s: Store, s': Store)
    requires Valid(s)
    requires s' == s.(users := s'.users, nextUser := s'.nextUser)
    requires s.users.Keys <= s'.users.Keys
    requires forall k :: k in s'.users ==> k < s'.nextUser
    requires UniqueLogins(s')
    ensures Valid(s')
  {
    assert KeysBelowCounters(s');
    assert OneCartPerUser(s');
    assert OrdersConsistent(s');
  }

  /** Changing only orders, under ids below the counter and each consistent, keeps the store valid. */
  lemma ValidAfterOrders(s: Store, s': Store)
    requires Valid(s)
    requires s' == s.(orders := s'.orders, nextOrder := s'.nextOrder, nextOrderItem := s'.nextOrderItem)
    requires forall k :: k in s'.orders ==> k < s'.nextOrder
    requires OrderLineIdsBelow(s')
    requires OrdersConsistent(s')
    ensures Valid(s')
  {
    assert KeysBelowCounters(s');
  }

  /** The store with order `o` saved under the next order id. */
  function WithOrder(s: Store, o: Order): Store {
    s.(orders := s.orders[s.nextOrder := o], nextOrder := s.nextOrder + 1,
       nextOrderItem := s.nextOrderItem + |o.items|)
  }

  /**
    Saving a new order whose owner and products exist, whose total is the
    sum of its lines and whose lines take the next order-line ids keeps the
    store valid.
  */
  lemma ValidAfterNewOrder(s: Store, o: Order)
    requires Valid(s) && o.owner in s.users && o.total == Total(o.Lines())
    requires forall k :: 0 <= k < |o.items| ==> o.items[k].line.product in s.products
    requires forall k :: 0 <= k < |o.items| ==> o.items[k].id == s.nextOrderItem + k
    ensures Valid(WithOrder(s, o))
  {
    NewOrderLineIds(s, o);
    NewOrderConsistent(s, o);
    ValidAfterOrders(s, WithOrder(s, o));
  }

  lemma NewOrderLineIds(s: Store, o: Order)
    requires OrderLineIdsBelow(s) && forall k :: k in s.orders ==> k < s.nextOrder
    requires forall k :: 0 <= k < |o.items| ==> o.items[k].id == s.nextOrderItem + k
    ensures OrderLineIdsBelow(WithOrder(s, o))
    ensures forall k :: k in WithOrder(s, o).orders ==> k < WithOrder(s, o).nextOrder
  {
    var s' := WithOrder(s, o);
    forall q | q in s'.orders
      ensures IdsBelow(s'.orders[q].items, s'.nextOrderItem)
    {
      if q != s.nextOrder {
        assert s'.orders[q] == s.orders[q];
        assert IdsBelow(s.orders[q].items, s.nextOrderItem);
      }
    }
  }

  lemma NewOrderConsistent(s: Store, o: Order)
    requires OrdersConsistent(s) && o.owner in s.users && o.total == Total(o.Lines())
    requires forall k :: 0 <= k < |o.items| ==> o.items[k].line.product in s.products
    ensures OrdersConsistent(WithOrder(s, o))
  {
  }

  /** Relabelling a stored order keeps the store valid: its lines, owner and total stay. */
  lemma ValidAfterStatus(s: Store, o: Id, st: Status)
    requires Valid(s) && o in s.orders
    ensures Valid(s.(orders := s.orders[o := s.orders[o].(status := st)]))
  {
    var s' := s.(orders := s.orders[o := s.orders[o].(status := st)]);
    StatusKeepsOrders(s, o, st);
    ValidAfterOrders(s, s');
  }

  lemma StatusKeepsOrders(s: Store, o: Id, st: Status)
    requires OrderLineIdsBelow(s) && OrdersConsistent(s) && o in s.orders
    requires forall k :: k in s.orders ==> k < s.nextOrder
    ensures var s' := s.(orders := s.orders[o := s.orders[o].(status := st)]);
      && OrderLineIdsBelow(s') && OrdersConsistent(s')
      && forall k :: k in s'.orders ==> k < s'.nextOrder
  {
    var s' := s.(orders := s.orders[o := s.orders[o].(status := st)]);
    assert forall q :: q in s'.orders ==> s'.orders[q].items == s.orders[q].items;
    assert s'.orders[o].Lines() == s.orders[o].Lines();
  }

  /** The empty database. */
  function Empty(): (s: Store)
    ensures Valid(s)
  {
    Store(map[], 0, map[], 0, map[], 0, map[], 0, map[], 0, 0)
  }

  // ---------------------------------------------------------------------
  // Repository queries.
  // ---------------------------------------------------------------------

  predicate OwnedBy(u: Id, c: Cart) { c.owner == u }

  predicate InCart(c: Id, it: CartItem) { it.cart == c }

  predicate InCartFor(c: Id, p: Id, it: CartItem) { it.cart == c && it.line.product == p }

  predicate HasEmail(e: string, u: User) { u.email == e }

  predicate HasUsername(n: string, u: User) { u.username == n }

  predicate PlacedBy(u: Id, o: Order) { o.owner == u }

  /** `CarrinhoRepository.findByUsuarioId`. */
  function CartOf(s: Store, u: Id): Option<Id> {
    FirstKey(s.carts, c => OwnedBy(u, c), 0, s.nextCart)
  }

  /** The lines of cart `c`, in id order (the cart's `itens` collection). */
  function LinesOf(s: Store, c: Id): seq<Id> {
    KeysWhere(s.items, it => InCart(c, it), 0, s.nextItem)
  }

  /** `ItemCarrinhoRepository.findByCarrinhoIdAndProdutoId`. */
  function ItemFor(s: Store, c: Id, p: Id): Option<Id> {
    FirstKey(s.items, it => InCartFor(c, p, it), 0, s.nextItem)
  }

  /** `UserRepository.findByEmail`. */
  function UserByEmail(s: Store, e: string): Option<Id> {
    FirstKey(s.users, u => HasEmail(e, u), 0, s.nextUser)
  }

  /** `UserRepository.existsByEmail`. */
  function EmailExists(s: Store, e: string): bool {
    UserByEmail(s, e).Some?
  }

  /** `UserRepository.existsByUsername`. */
  function UsernameExists(s: Store, n: string): bool {
    FirstKey(s.users, u => HasUsername(n, u), 0, s.nextUser).Some?
  }

  /** The ids of the orders placed by `u`, in id order. */
  function OrdersOf(s: Store, u: Id): seq<Id> {
    KeysWhere(s.orders, o => PlacedBy(u, o), 0, s.nextOrder)
  }

  /** The user owns a cart. */
  ghost predicate HasCart(s: Store, u: Id) {
    exists c :: c in s.carts && s.carts[c].owner == u
  }

  // ---------------------------------------------------------------------
  // What the queries return, stated on the tables themselves.
  // ---------------------------------------------------------------------

  /** In a valid store `findByUsuarioId` finds exactly the cart the user owns. */
  lemma CartOfIs(s: Store, u: Id, c: Id)
    requires Valid(s)
    ensures CartOf(s, u) == Some(c) <==> c in s.carts && s.carts[c].owner == u
  {
    var r := CartOf(s, u);
    if c in s.carts && s.carts[c].owner == u {
      assert OwnedBy(u, s.carts[c]);
      assert r.Some?;
    }
  }

  /** `findByUsuarioId` comes back empty exactly when the user owns no cart. */
  lemma CartOfNone(s: Store, u: Id)
    requires Valid(s)
    ensures CartOf(s, u).None? <==> forall c :: c in s.carts ==> s.carts[c].owner != u
  {
    if CartOf(s, u).None? {
      forall c | c in s.carts
        ensures s.carts[c].owner != u
      {
        assert !OwnedBy(u, s.carts[c]);
      }
    }
  }

  /** The lines of a cart are exactly the item rows that point at it. */
  lemma LinesOfMembers(s: Store, c: Id)
    requires Valid(s)
    ensures forall i :: i in LinesOf(s, c) <==> i in s.items && s.items[i].cart == c
  {
  }

  /** In a valid store `findByCarrinhoIdAndProdutoId` finds the one line of that product. */
  lemma ItemForIs(s: Store, c: Id, p: Id, i: Id)
    requires Valid(s)
    ensures ItemFor(s, c, p) == Some(i) <==>
      i in s.items && s.items[i].cart == c && s.items[i].line.product == p
  {
    var r := ItemFor(s, c, p);
    if i in s.items && s.items[i].cart == c && s.items[i].line.product == p {
      assert InCartFor(c, p, s.items[i]);
      assert r.Some?;
    }
  }

  /** `findByCarrinhoIdAndProdutoId` is empty exactly when the cart has no line of that product. */
  lemma ItemForNone(s: Store, c: Id, p: Id)
    requires Valid(s)
    ensures ItemFor(s, c, p).None? <==>
      forall i :: i in s.items && s.items[i].cart == c ==> s.items[i].line.product != p
  {
    if ItemFor(s, c, p).None? {
      forall i | i in s.items && s.items[i].cart == c
        ensures s.items[i].line.product != p
      {
        assert !InCartFor(c, p, s.items[i]);
      }
    }
  }

  /** In a valid store `findByEmail` finds exactly the user with that email. */
  lemma UserByEmailIs(s: Store, e: string, u: Id)
    requires Valid(s)
    ensures UserByEmail(s, e) == Some(u) <==> u in s.users && s.users[u].email == e
  {
    var r := UserByEmail(s, e);
    if u in s.users && s.users[u].email == e {
      assert HasEmail(e, s.users[u]);
      assert r.Some?;
    }
  }

  /** `existsByEmail` and `existsByUsername` are true exactly when some user has that value. */
  lemma ExistsIff(s: Store, x: string)
    requires Valid(s)
    ensures EmailExists(s, x) <==> exists u :: u in s.users && s.users[u].email == x
    ensures UsernameExists(s, x) <==> exists u :: u in s.users && s.users[u].username == x
  {
    if exists u :: u in s.users && s.users[u].email == x {
      var u :| u in s.users && s.users[u].email == x;
      assert HasEmail(x, s.users[u]);
    }
    if exists u :: u in s.users && s.users[u].username == x {
      var u :| u in s.users && s.users[u].username == x;
      assert HasUsername(x, s.users[u]);
    }
  }
}

=== FILE: user_service.dfy ===
/**
  `UserService`: replacing a user's roles, the admin test, and lookup by
  email. Each throws when the user is not found.
*/
module UserService {
  import opened Outcomes
  import opened Keys
  import opened Store

  /** `updateUserRole`: the user's roles become exactly `{newRole}`. */
  function UpdateUserRole(s: Store, u: Id, newRole: Role): (r: Result<(Store, User)>)
    requires Valid(s)
    ensures r.Ok? ==> Valid(r.value.0)
    ensures r.Err? <==> u !in s.users
    ensures r.Err? ==> r.error == UserNotFound
    ensures r.Ok? ==>
      && r.value.1.roles == {newRole}
      && r.value.1 == s.users[u].(roles := r.value.1.roles)
      && r.value.0 == s.(users := s.users[u := r.value.1])
  {
    if u !in s.users then Err(UserNotFound)
    else
      var user := s.users[u].(roles := {newRole});
      var s' := s.(users := s.users[u := user]);
      assert UniqueLogins(s');
      ValidAfterUsers(s, s');
      Ok((s', user))
  }

  /** `isAdmin`. */
  function IsAdmin(s: Store, u: Id): (r: Result<bool>)
    ensures r.Err? <==> u !in s.users
    ensures r.Err? ==> r.error == UserNotFound
    ensures r.Ok? ==> (r.value <==> ADMIN in s.users[u].roles)
  {
    if u !in s.users then Err(UserNotFound) else Ok(ADMIN in s.users[u].roles)
  }

  /** `findUserByEmail`. */
  function FindUserByEmail(s: Store, e: string): (r: Result<Id>)
    requires Valid(s)
    ensures r.Err? <==> forall u :: u in s.users ==> s.users[u].email != e
    ensures r.Err? ==> r.error == UserNotFound
    ensures r.Ok? ==> r.value in s.users && s.users[r.value].email == e
  {
    match UserByEmail(s, e)
    case None =>
      forall u | u in s.users ensures s.users[u].email != e {
        UserByEmailIs(s, e, u);
      }
      Err(UserNotFound)
    case Some(u) =>
      UserByEmailIs(s, e, u);
      Ok(u)
  }

  /**
    Replacing the role drops every earlier one: after promoting to ADMIN
    the user is an admin, and after setting CLIENTE the user is not, even
    if they were before.
  */
  lemma RoleReplacementDecidesAdmin(s: Store, u: Id, newRole: Role)
    requires Valid(s) && u in s.users
    ensures UpdateUserRole(s, u, newRole).Ok?
    ensures IsAdmin(UpdateUserRole(s, u, newRole).value.0, u) == Ok(newRole == ADMIN)
  {
  }
}
